=== FILE: README.md ===
# Accessible reading page: a Dafny model

The page shows its content as a "waterfall" of full-screen boxes. Exactly one
box is active, and the page moves between boxes one at a time by wheel, keyboard,
touch swipe, indicator dots or voice. A short cooldown lock keeps a burst of
input from skipping boxes. Around the waterfall sit the accessibility managers:
- page zoom;
- a line reader that reads the page's lines aloud one at a time;
- the speech switches and the XML escaping of text for speech synthesis;
- voice commands;
- the light/dark theme;
- colour-blindness filters;
- the keyboard-help dialog.

Each component is an immutable record with pure transition functions:

- DOM reads (box metrics, the page's text lines, the window height) are parameters.
- The clock `Date.now()` is a parameter.
- The 600 ms cooldown timer is an explicit `LockExpired` event, or the `Unlock` function.
- Local storage is a parameter or a map wherever what is stored decides behaviour.

Modules:

- `Waterfall` (`waterfall.dfy`): the navigator state, the visibility projection, the steps and jumps, and the wheel, key and touch adapters. It also has the invariant `Valid`. The navigator records every `waterfallBoxChange` notification it sends, so "nothing else changes" is plain equality.
- `WaterfallEvents` (`waterfall_events.dfy`): the navigator as an event reactor. It proves the cooldown's purpose: without jumps, the active box moves at most one place per cooldown window.
- `WaterfallLemmas` (`waterfall_lemmas.dfy`): properties relating several navigator operations, plus scenarios in the page's own numbers.
- `Zoom`, `Speech`, `XmlEscape`, `LineReader`, `Theme`, `ColorBlind`, `KeyboardHelp`, `VoiceCommands`: one module per manager.
- `Wrappers`: `Option`.

## Model

| member | source | states |
|---|---|---|
| Waterfall.UpdateBoxStates | waterfall.js:65-83 | every box gets exactly one class: `active` on the current box (which alone carries `aria-current`), `previous` and `next` on its neighbours, and `hidden` on all the others |
| Waterfall.Create | waterfall.js:6-62 | construction and `init`: index 0, unlocked, box 0 active and every other box hidden; box 0 is focused exactly when boxes exist; no notification yet |
| Waterfall.ActivateBox | waterfall.js:86-98 | the index is clamped to `[0, n-1]`; the projection is recomputed, the box focused and one notification with the new index sent; the lock, throttle stamp and touch origin are untouched; with no boxes only the index is reset, because focusing the missing box throws |
| Waterfall.NextBox | waterfall.js:101-114 | moves exactly when a next box exists and the lock is off; then the index is +1, the lock is taken and one notification is sent; otherwise nothing changes |
| Waterfall.PreviousBox | waterfall.js:117-130 | moves exactly when the index is above 0 and the lock is off; then the index is -1, the lock is taken and one notification is sent; otherwise nothing changes |
| Waterfall.Unlock | waterfall.js:106-109 | the cooldown timer releases the lock and changes nothing else |
| Waterfall.GoToBox | waterfall.js:306-312 | moves exactly when the index is in range, whatever the lock, and then lands on that index; an out-of-range index changes nothing |
| Waterfall.HandleResize | waterfall.js:288-291 | recomputes the projection of the current index and changes nothing else |
| Waterfall.HasContentOverflow | waterfall.js:133-148 | a missing content region never overflows, and content that fits its box in both directions does not overflow |
| Waterfall.IsAtScrollBoundary | waterfall.js:151-170 | a missing content region counts as at a boundary; content that fits its box up to the 2 px tolerance is always at one; content away from both ends hides more than 4 px |
| Waterfall.HandleScroll | waterfall.js:173-208 | swallowed while throttled or locked; passes through to the content when it overflows and is not at a boundary; otherwise stamps `now`, steps in the direction of `deltaY`, and prevents the default exactly when `deltaY` is non-zero |
| Waterfall.HandleKeydown | waterfall.js:211-256 | nothing in text inputs; ArrowDown/PageDown/Space step forward, ArrowUp/PageUp step back, Home/End jump to the ends, and 1-3 jump to box `digit-1` when it exists; every other key is ignored and its default kept |
| Waterfall.TouchStart | waterfall.js:264-266 | records the start coordinate and nothing else |
| Waterfall.TouchEnd | waterfall.js:268-284 | ignored while locked or for a swipe of at most 30 px; an upward swipe steps forward and a downward swipe steps back |
| WaterfallEvents.Dispatch | waterfall.js:20-62 | every event keeps the invariant and the box count; with no boxes the listener events are ignored, otherwise each reaches its handler; the timer unlocks, an indicator click goes to its box, and `scrollNext`/`scrollPrev` step; only the timer releases the lock; a non-jump event that changes the index takes the lock and moves exactly one place |
| WaterfallEvents.DispatchInput | waterfall.js:20-62 | the listener events: ignored with no boxes; otherwise a wheel event reaches `handleScroll`, a key `handleKeydown`, a touch start or end its touch handler and a resize `handleResize`; the same guarantees as `Dispatch` |
| WaterfallEvents.DispatchCall | waterfall.js:101-130 | the timer unlocks, an indicator click is `goToBox` of its index, and `scrollNext`/`scrollPrev` are `nextBox`/`previousBox`; the same guarantees as `Dispatch` |
| WaterfallEvents.NextIsLockedStep | waterfall.js:101-114 | a step forward keeps the invariant and moves at most one place, only by taking the lock |
| WaterfallEvents.PreviousIsLockedStep | waterfall.js:117-130 | a step back keeps the invariant and moves at most one place, only by taking the lock |
| WaterfallEvents.ActivateKeepsValid | waterfall.js:86-98 | a clamped jump on a page with boxes keeps the invariant and leaves the lock as it was |
| WaterfallEvents.WheelIsLockedStep | waterfall.js:173-208 | the wheel handler keeps the invariant and moves at most one place, only by taking the lock |
| WaterfallEvents.TouchIsLockedStep | waterfall.js:259-285 | the touch handlers keep the invariant and move at most one place, only by taking the lock |
| WaterfallEvents.KeydownKeepsValid | waterfall.js:211-256 | the key handler keeps the invariant and never releases the lock; apart from Home, End and the digits it moves at most one place, only by taking the lock |
| WaterfallEvents.Run | waterfall.js:20-62 | a whole session keeps the invariant |
| WaterfallEvents.CreateValid | waterfall.js:20-62 | the constructed navigator satisfies the invariant |
| WaterfallEvents.AtMostOneLockPerCooldown | waterfall.js:101-130 | while the timer does not fire, the lock is taken at most once, and never if it was already held |
| WaterfallEvents.DisplacementBoundedByLocks | waterfall.js:101-130 | without jumps, the active box moves no further than the number of times the lock was taken |
| WaterfallEvents.SingleStepPerCooldown | waterfall.js:101-130 | within one cooldown window and without jumps, the active box moves at most one place |
| WaterfallLemmas.ProjectionShape | waterfall.js:65-83 | after a projection the active set and the `aria-current` set are both the current index, `previous`/`next` are its existing neighbours, and exactly the rest are hidden |
| WaterfallLemmas.InitLayoutIsNotProjection | waterfall.js:33-41 | with two or more boxes, `init`'s layout differs from the projection: box 1 is hidden rather than `next` |
| WaterfallLemmas.ActivateIsNearest | waterfall.js:86-88 | the clamped jump lands on the valid index nearest the requested one |
| WaterfallLemmas.ClampScenario | waterfall.js:86-88 | on five boxes, `activateBox(-5)` lands on 0 and `activateBox(100)` on 4, while `goToBox` refuses both |
| WaterfallLemmas.GoToBoxAgreesWithActivate | waterfall.js:306-312 | an in-range `goToBox` is `activateBox`; an out-of-range one is a no-op |
| WaterfallLemmas.LockBypass | waterfall.js:306-312 | a direct jump succeeds during the cooldown right after a step |
| WaterfallLemmas.NextThenPrevious | waterfall.js:101-130 | a step forward, then the timer, then a step back restore the index and the projection |
| WaterfallLemmas.PreviousThenNext | waterfall.js:101-130 | a step back, then the timer, then a step forward restore the index |
| WaterfallLemmas.ResizeIdempotent | waterfall.js:288-291 | resizing twice is resizing once, and the active box never changes |
| WaterfallLemmas.WheelPassThroughExactly | waterfall.js:133-208 | an unthrottled wheel event leaves the throttle stamp alone exactly when the content overflows and is more than 2 px from both its top and its bottom; in that case nothing changes and the default is kept |
| WaterfallLemmas.WheelMissingContentNavigates | waterfall.js:133-170 | with no content region, an unthrottled wheel event always reaches the navigator |
| WaterfallLemmas.PassThroughNeedsVerticalScroll | waterfall.js:133-170 | the wheel passes through to the content only when the content exists and hides more than 4 px vertically; horizontal overflow alone never suffices |
| WaterfallLemmas.WheelOverflowScenario | waterfall.js:133-208 | content 1000 px long in a 300 px box, scrolled to 150: the wheel never navigates and, unless throttled, keeps the default |
| WaterfallLemmas.WheelTopBoundaryScenario | waterfall.js:151-208 | the same content at its top: an upward wheel event steps back (or stays on box 0) and prevents the default |
| WaterfallLemmas.WheelThrottleFirst | waterfall.js:177-181 | within 400 ms of the last accepted wheel event, any event is swallowed |
| WaterfallLemmas.TouchSwipeScenario | waterfall.js:264-284 | a swipe from y=500 to y=440 steps forward exactly once and takes the lock |
| WaterfallLemmas.TouchShortSwipeIgnored | waterfall.js:268-284 | a swipe of at most 30 px never navigates |
| WaterfallLemmas.ArrowDownThenUp | waterfall.js:211-230 | ArrowDown, then the timer, then ArrowUp restore the index |
| WaterfallLemmas.HomeEndIgnoreLock | waterfall.js:232-242 | Home and End reach the first and last box even while the lock is on, and leave the lock as it was |
| WaterfallLemmas.DigitKeys | waterfall.js:244-254 | key 3 jumps to box 2 when there are at least three boxes and is ignored otherwise; key 1 jumps to box 0 |
| Zoom.ApplyZoom | script.js:1245-1251 | the stored level is the requested one limited to [50, 200] |
| Zoom.Create | script.js:1219-1237 | the stored level, or 100 when nothing is stored, passed through `applyZoom` |
| Zoom.IncreaseZoom | script.js:1254-1263 | +10 when the result stays at most 200, announcing the new level; otherwise no change and the 200% limit is announced; the range is kept |
| Zoom.DecreaseZoom | script.js:1266-1275 | -10 when the result stays at least 50, announcing the new level; otherwise no change and the 50% limit is announced; the range is kept |
| Zoom.ResetZoom | script.js:1278-1282 | back to 100 from any level, announcing the level it was reset to |
| Zoom.AnnouncementNamesLevel | script.js:1254-1282 | from any allowed level, a step that changes the level announces the new level in decimal, and one that does not announces the limit it would have passed; a reset announces 100% |
| Zoom.DigitsRoundTrip | script.js:1259 | the decimal text written into an announcement reads back as the level it was written from |
| Zoom.HandleShortcut | script.js:1302-1319 | Ctrl/Cmd with `+` or `=` zooms in, with `-` zooms out, with `0` resets, each suppressing the default and making its announcement; anything else is left to the browser |
| Zoom.DecreaseUndoesIncrease | script.js:1254-1275 | zooming in and back out is the identity where zooming in is allowed |
| Zoom.IncreaseUndoesDecrease | script.js:1254-1275 | zooming out and back in is the identity where zooming out is allowed |
| Zoom.ResetIdempotent | script.js:1278-1282 | resetting twice is resetting once |
| Zoom.ApplyIdempotent | script.js:1245-1251 | applying a level twice is applying it once |
| Zoom.SavedLevelRestored | script.js:1234-1251 | the level saved by one visit is the level the next visit starts with |
| Zoom.IncreaseTimes | script.js:1254-1263 | repeated zooming in never leaves the range, and `k` steps add exactly `10k` while that stays at most 200 |
| XmlEscape.ReplaceAll | script.js:463-470 | a global replacement removes every occurrence of the character (when the replacement lacks it), is the identity when the character is absent, and never shortens the text with a non-empty replacement |
| XmlEscape.EscapeXml | script.js:463-470 | the five replacements in sequence, `&` first, equal escaping each character on its own |
| XmlEscape.EscapeXmlIsSafe | script.js:463-470 | the escaped text has no `<`, `>`, `"` or `'`, every `&` in it starts one of the five entities, and decoding the entities gives the input back |
| XmlEscape.Chain | script.js:463-470 | the five replacements in order never shorten the text; `EscapeIsOnePass` states what they compute |
| XmlEscape.ReplaceAllAppend | script.js:463-470 | a global replacement distributes over concatenation |
| XmlEscape.ChainAppend | script.js:463-470 | the five-replacement chain distributes over concatenation |
| XmlEscape.ChainOnChar | script.js:463-470 | on a single character the chain writes that character's entity, or the character itself |
| XmlEscape.NoMarkupFixed | script.js:464-470 | the four replacements after the first leave alone any text without markup characters, such as an entity |
| XmlEscape.UnescapeEscapeChar | script.js:463-470 | decoding one escaped character followed by any text gives the character back, followed by the decoding of that text |
| XmlEscape.EscapeIsOnePass | script.js:463-470 | replacing `&` first makes the chain equal to a single-pass escape: no entity is escaped twice |
| XmlEscape.OnePassHasNoMarkup | script.js:463-470 | the single-pass escape leaves no markup character |
| XmlEscape.OnePassAnchorsAmpersands | script.js:463-470 | every `&` in the single-pass escape starts an entity |
| XmlEscape.UnescapeInvertsOnePass | script.js:463-470 | decoding the five entities inverts the single-pass escape |
| Speech.Create | script.js:149-187 | with nothing stored, speech and hover reading are both off |
| Speech.ToggleEnabled | script.js:227-239 | flips the master switch, keeps hover reading, and announces the new state |
| Speech.ToggleHoverRead | script.js:201-213 | while speech is off, nothing changes and the "enable speech first" prompt is announced; otherwise hover reading flips and the new state is announced |
| Speech.HoverReadInvolution | script.js:201-213 | toggling hover reading twice restores the switches, whether or not speech is on |
| Speech.EnabledInvolution | script.js:227-239 | toggling speech twice restores the switches |
| LineReader.Create | script.js:622-627 | the cursor starts at -1 with no lines and nothing being spoken |
| LineReader.ReadLine | script.js:683-717 | a line is spoken exactly when the index is in range and speech is available and enabled; in range with speech disabled, the enable-speech prompt and nothing else is announced; in every other case nothing changes |
| LineReader.LinesFor | script.js:642-644 | lines already collected are kept; an empty list is filled from the page; the result is empty only when both are |
| LineReader.ReadNextLine | script.js:641-659 | lines are collected whenever the list is still empty; from -1 the cursor goes to line 0, otherwise one line on, wrapping to 0 past the end; the line under the cursor is spoken when speech is enabled, the enable-speech prompt announced when it is disabled, and nothing said without lines or a speech manager; the reader is speaking exactly when it was or a line was spoken; the cursor invariant is kept |
| LineReader.ReadPreviousLine | script.js:662-680 | lines are collected whenever the list is still empty; at -1 nothing else happens; otherwise one line back, wrapping to the last line before the start, and the line is spoken, the prompt announced or nothing said as for the next line; the reader is speaking exactly when it was or a line was spoken; the cursor invariant is kept |
| LineReader.Stop | script.js:721-726 | speaking stops and nothing else changes |
| LineReader.PreviousUndoesNext | script.js:641-680 | next then previous returns the cursor to its line |
| LineReader.NextUndoesPrevious | script.js:641-680 | previous then next returns the cursor to its line |
| LineReader.NextTimes | script.js:641-659 | any number of "next line" presses keeps the cursor invariant and the line list |
| LineReader.NextTimesCompose | script.js:641-659 | `a` presses followed by `b` presses are `a + b` presses |
| LineReader.NextTimesAdvances | script.js:641-659 | before the end of the list, `k` presses move exactly `k` lines |
| LineReader.CollectedLinesKept | script.js:641-680 | once a read has found lines, later reads keep them whatever the page holds then |
| LineReader.WrapsAtEnd | script.js:653-656 | from the last line, one press wraps to the first |
| LineReader.ReachesFirst | script.js:641-659 | from line `i` of `n`, `n - i` presses reach line 0 |
| LineReader.FullCycleReturns | script.js:641-659 | one press per line brings the cursor back to its starting line: the reader walks the lines cyclically |
| Theme.ClassForInjective | script.js:879-884 | the `theme-` prefix makes the class name determine the theme name, so two themes never share a class |
| Theme.ApplyTheme | script.js:876-887 | any name (names with white space aside, see below) becomes the current theme; its class is added; the light class is present exactly when the theme is light, and likewise dark; every unrelated class is kept and none is added |
| Theme.Create | script.js:854-868 | the stored theme, or light when nothing or the empty string is stored, is applied |
| Theme.ToggleTheme | script.js:890-895 | light becomes dark and anything else becomes light, with the matching announcement; afterwards exactly one of the light and dark classes is present |
| Theme.ToggleTwice | script.js:890-895 | toggling twice restores the theme exactly when it was light or dark; any other stored name comes back as dark |
| ColorBlind.ApplyMode | script.js:1004-1016 | corrected: one of the five modes sets its filter and is saved under `colorblindMode`; any other name changes nothing |
| ColorBlind.ApplyModeAsWritten | script.js:1004-1016 | as written: also accepts the twelve property names every object inherits, which set the filter to `none` |
| ColorBlind.SavedOr | script.js:995-998 | the loaded mode is never empty: the stored value when there is a non-empty one, `none` otherwise |
| ColorBlind.Create | script.js:918-934 | corrected: a known mode saved under `colorblindMode` (or `none` when nothing is saved) is put in force, with its filter applied and the mode saved back; an unknown saved name leaves the filter and storage untouched |
| ColorBlind.CreateAsWritten | script.js:918-997 | as written: the saved mode is read from the key `undefined`, and a known or inherited name found there is applied as `applyMode` as written applies it |
| ColorBlind.ApplyIdempotent | script.js:1004-1016 | applying a mode twice is applying it once |
| ColorBlind.ApplyKeepsKnownMode | script.js:1004-1016 | starting from a known mode, only known modes ever become current |
| ColorBlind.SavedModeRestored | script.js:995-1016 | corrected: a mode chosen on one visit is the mode in force on the next, with that mode's filter applied |
| ColorBlind.AsWrittenAcceptsInheritedName | script.js:1004-1016 | as written, `applyMode("constructor")` makes `constructor` the current mode; the corrected version ignores it |
| ColorBlind.AsWrittenLosesSavedMode | script.js:918-1002 | as written, a saved `protanopia` comes back as `none` and is overwritten with `none`; the corrected version restores it |
| KeyboardHelp.Create | script.js:734-737 | the help starts closed, with no dialog and no listener |
| KeyboardHelp.Open | script.js:748-826 | the dialog is shown and one more key listener is installed |
| KeyboardHelp.CloseModal | script.js:840-846 | corrected: closed, with no dialog and no leftover listener |
| KeyboardHelp.CloseModalAsWritten | script.js:840-846 | as written: closed, with no dialog, but every installed listener stays |
| KeyboardHelp.ShowKeyboardHelp | script.js:739-746 | closes the help when it is open, otherwise opens it |
| KeyboardHelp.ShowKeyboardHelpAsWritten | script.js:739-746 | the same toggle over the as-written close |
| KeyboardHelp.HandleKey | script.js:829-837 | Escape or F12 with a listener installed suppresses the default, closes the help and removes the listeners; any other key, or no listener, changes nothing |
| KeyboardHelp.OperationsKeepValid | script.js:739-846 | with the correction, the dialog is shown exactly while the help is open, with one listener then and none otherwise |
| KeyboardHelp.ClosedHelpSwallowsNothing | script.js:829-846 | with the correction, a key is swallowed exactly when it is Escape or F12 and the help is open |
| KeyboardHelp.ShowTwiceRestores | script.js:739-746 | pressing the help button twice returns to the starting state |
| KeyboardHelp.AsWrittenSwallowsKeyAfterClose | script.js:739-846 | as written, opening the help and closing it with the button leaves F12 swallowed; with the correction it passes through |
| VoiceCommands.Position | script.js:1059-1107 | every command has a place in the ordered command table |
| VoiceCommands.Lower | script.js:1150-1152 | lower-casing keeps the length and maps each character on its own |
| VoiceCommands.Trim | script.js:1150-1152 | trimming removes the white space at both ends and nothing else: the result is the slice between a prefix and a suffix made only of white space, and it neither starts nor ends with white space |
| VoiceCommands.TrimIdempotent | script.js:1150-1152 | trimming an already trimmed text changes nothing |
| VoiceCommands.Normalise | script.js:1152 | the searched text is no longer than the transcript, has no ASCII capital, and neither starts nor ends with white space |
| VoiceCommands.PhrasesArePlain | script.js:1059-1107 | every command phrase is non-empty and contains neither white space nor Latin letters |
| VoiceCommands.LowerKeepsContains | script.js:1150-1158 | lower-casing does not change whether a phrase without Latin letters occurs |
| VoiceCommands.SliceKeepsContains | script.js:1150-1158 | dropping white space at the ends does not change whether a non-empty phrase without white space occurs |
| VoiceCommands.NormaliseKeepsMatches | script.js:1150-1158 | normalising a transcript never changes which commands it asks for |
| VoiceCommands.Includes | script.js:1158 | the scan finds the phrase exactly when it occurs somewhere in the text |
| VoiceCommands.FindCommand | script.js:1150-1172 | the command found is in the transcript and no earlier command in the table is; none is found exactly when no phrase occurs |
| VoiceCommands.ZoomAct | script.js:1059-1068 | "放大", "缩小" and "重置" run the zoom manager's step and record its announcement; without a zoom manager nothing happens |
| VoiceCommands.ScrollAct | script.js:1069-1094 | "下滑" and "上滑" step the navigator forward or back when it exists, and otherwise scroll the window by one viewport down or up; nothing else changes |
| VoiceCommands.SwitchAct | script.js:1095-1100 | "启用朗读" turns speech on and "关闭朗读" turns it off, announcing the change; a switch already in that position, or no speech manager, changes nothing |
| VoiceCommands.LineAct | script.js:1101-1106 | "下一行" and "上一行" read the next or previous line when a line reader exists, and otherwise do nothing |
| VoiceCommands.Act | script.js:1059-1107 | each command is the action of its group above, and touches only its own component; the scroll commands announce nothing |
| VoiceCommands.Reader | script.js:683-717 | a line read stores the reader's new state; a spoken line is appended to what was spoken, a prompt to what was announced, and a silent read adds to neither; nothing else changes |
| VoiceCommands.Execute | script.js:1160-1167 | after the action, "已执行：" plus the phrase is spoken exactly when speech is then enabled and the command is not a line command; nothing else differs from the action alone |
| VoiceCommands.ProcessCommand | script.js:1150-1172 | the first matching command in table order runs; a transcript asking for nothing leaves every component unchanged |
| VoiceCommands.ReadingSwitchFeedback | script.js:1160-1167 | "enable reading" is confirmed aloud, because the check follows the action; "disable reading" never is |
| VoiceCommands.LineCommandsSpeakOnlyTheLine | script.js:1160-1167 | the line commands add at most the line itself to what is spoken |
| VoiceCommands.TableOrderWins | script.js:1157-1158 | "缩小放大" contains both zoom phrases, and zoom-in wins because it comes first in the table |
| VoiceCommands.SpacedTranscript | script.js:1150-1158 | surrounding spaces and extra text do not stop "下滑" from matching |

## Left out

- Rendering is not modelled: CSS classes are modelled as values; transitions, focus styling, the indicator's DOM and the SVG filter definitions are not.
- Navigator construction in the DOM is not modelled: box discovery and the indicator dots' creation are out. The box count is a parameter, and an indicator click is the `IndicatorClick` event.
- Timers are not modelled as time: the 600 ms cooldown is an explicit `LockExpired` event. Only a successful `nextBox`/`previousBox` starts that timer, and a step needs the lock off, so at most one timer is pending at a time. The model still lets `LockExpired` arrive anywhere in an event sequence, including when no timer is pending, where it changes nothing but the already-clear lock. Its arrival is not tied to the `now` stamps that wheel events carry.
- Wheel and touch coordinates and the content region's scroll metrics are integers: fractional `deltaY`, `screenY` and `scrollTop` values (as on zoomed or high-density screens) are not modelled, so the 2 px boundary tests are decided on whole pixels.
- Speech output is not modelled: synthesis, the Edge TTS fallback, SSML construction, rate, volume and retries are all out. In the voice-command model, what is spoken and what is announced (including the zoom messages) are recorded as lists of strings; the live region keeps only the latest of them.
- The zoom font size in pixels is not modelled, because it is a floating-point value.
- `parseInt` of a non-numeric stored zoom level gives NaN in the page. The model's stored level is an integer or absent.
- Local storage for speech and hover reading is not modelled: `Speech.Create` starts from an empty store. The stores for zoom, theme and colour-blind mode are modelled.
- Theme.ApplyTheme: a theme name containing ASCII white space makes `classList.add` throw after the light and dark classes were removed and before the theme is recorded or saved; the model adds the class instead. The same holds for Theme.Create with such a stored name, where the throw also ends the page's start-up handler before the later managers are created.
- Waterfall.Create: `init` resets the four state classes but never touches `aria-current`, so the model's "no box carries `aria-current`" after construction assumes the page's markup starts without it.
- Waterfall.PreviousBox: the new index, views and notification are stated only when the index lies within the boxes. Every valid navigator satisfies that.
- VoiceCommands.Lower: lower-cases ASCII letters only, not the full Unicode mapping of `toLowerCase`; the command phrases contain no letters either mapping changes.
- Recognition start, stop and restart, and the browser recognition events, are not modelled. A final transcript is the input of `ProcessCommand`.
- An action failure caught by the `try` in the command loop is not modelled, because no modelled action throws.
- The hover-reading mouse handlers, the navbar and the feature panel are not modelled; neither is `enhanced-animations.js`.

## Findings

| source | as written | input that shows it | evidently intended | confidence | as-written member | corrected member |
|---|---|---|---|---|---|---|
| script.js:1004-1016 | `this.modes[mode]` also finds names inherited from `Object.prototype` | `applyMode("constructor")` makes `constructor` the current mode and saves it | only the five listed modes are accepted | high; not executed | ColorBlind.AsWrittenAcceptsInheritedName | ColorBlind.ApplyKeepsKnownMode |
| script.js:918-929 | `loadMode()` runs before `this.storageKey` is assigned, so it reads the key `undefined` | stored `colorblindMode` = `protanopia`: the page starts with no filter and overwrites the saved value with `none` | the mode saved under `colorblindMode` is restored | high; not executed | ColorBlind.AsWrittenLosesSavedMode | ColorBlind.SavedModeRestored |
| script.js:829-846 | the dialog's key listener removes itself only on Escape or F12, not when the dialog is closed by the button | open the help, close it with the button, press F12: the default is suppressed with no dialog open | closing the dialog removes its listener | medium; not executed | KeyboardHelp.AsWrittenSwallowsKeyAfterClose | KeyboardHelp.ClosedHelpSwallowsNothing |

=== FILE: color_blind.dfy ===
/** Colour-blindness filters: a mode name selects a CSS filter for the root
    element, and the chosen mode is saved in local storage under
    `colorblindMode`.

    Two defects of the page script are modelled here next to their corrections:
    the mode lookup also accepts the names every JavaScript object inherits
    (`ApplyModeAsWritten`), and the constructor reads the saved mode before the
    storage key is set, so it reads the key "undefined" (`CreateAsWritten`). The
    rest of the model uses `ApplyMode` and `Create`. */
module ColorBlind {

  const StorageKey: string := "colorblindMode"
  const NoFilter: string := "none"

  /** The five modes and the filter each writes; `none` has no `cssFilter`
      entry and so falls back to "none". */
  const Modes: map<string, string> := map[
    "none" := NoFilter,
    "protanopia" := "url(#protanopia-filter) saturate(1.1) brightness(1)",
    "deuteranopia" := "url(#deuteranopia-filter) saturate(1.1) brightness(1)",
    "tritanopia" := "url(#tritanopia-filter) saturate(1.1) brightness(1)",
    "achromatopsia" := "saturate(0) brightness(1.05) contrast(1.1)"
  ]

  /** Property names every plain JavaScript object inherits from `Object.prototype`. */
  const InheritedNames: set<string> := {
    "constructor", "hasOwnProperty", "isPrototypeOf", "propertyIsEnumerable",
    "toString", "toLocaleString", "valueOf", "__proto__",
    "__defineGetter__", "__defineSetter__", "__lookupGetter__", "__lookupSetter__"
  }

  /** `htmlFilter` is the root element's `style.filter`. */
  datatype ColorBlindManager = ColorBlindManager(currentMode: string, htmlFilter: string)

  /** A manager together with the local storage it leaves behind. */
  datatype Stored = Stored(manager: ColorBlindManager, storage: map<string, string>)

  /** `applyMode`, corrected: only the five mode names are accepted; the mode's
      filter is applied and the name saved. Anything else changes nothing. */
  function ApplyMode(c: ColorBlindManager, storage: map<string, string>, mode: string): (s: Stored)
    ensures mode in Modes ==> s.manager == ColorBlindManager(mode, Modes[mode])
    ensures mode in Modes ==> s.storage == storage[StorageKey := mode]
    ensures mode !in Modes ==> s == Stored(c, storage)
  {
    if mode in Modes then Stored(ColorBlindManager(mode, Modes[mode]), storage[StorageKey := mode])
    else Stored(c, storage)
  }

  /** `applyMode` as written: `this.modes[mode]` also finds the inherited names,
      whose value has no `cssFilter`, so the filter falls back to "none". */
  function ApplyModeAsWritten(c: ColorBlindManager, storage: map<string, string>, mode: string): (s: Stored)
    ensures mode in Modes ==> s == ApplyMode(c, storage, mode)
    ensures mode in InheritedNames ==> s.manager == ColorBlindManager(mode, NoFilter)
    ensures mode !in Modes && mode !in InheritedNames ==> s == Stored(c, storage)
  {
    if mode in Modes then ApplyMode(c, storage, mode)
    else if mode in InheritedNames then
      Stored(ColorBlindManager(mode, NoFilter), storage[StorageKey := mode])
    else Stored(c, storage)
  }

  /** `saved || 'none'`: a missing or empty stored value means no filter. */
  function SavedOr(storage: map<string, string>, key: string): (v: string)
    ensures v != ""
    ensures key in storage && storage[key] != "" ==> v == storage[key]
  {
    if key in storage && storage[key] != "" then storage[key] else "none"
  }

  /** The constructor and `init`, corrected: the saved mode is read under the
      storage key and applied. The root element starts without a filter. */
  function Create(storage: map<string, string>): (s: Stored)
    // a known saved mode is put in force: its filter applied and the mode saved back
    ensures var m := SavedOr(storage, StorageKey);
      m in Modes ==> s == Stored(ColorBlindManager(m, Modes[m]), storage[StorageKey := m])
    // an unknown saved name is kept as the mode, with no filter and storage untouched
    ensures var m := SavedOr(storage, StorageKey);
      m !in Modes ==> s == Stored(ColorBlindManager(m, ""), storage)
  {
    var saved := SavedOr(storage, StorageKey);
    ApplyMode(ColorBlindManager(saved, ""), storage, saved)
  }

  /** The constructor and `init` as written: the key is still unset when the
      saved mode is read, and `localStorage.getItem(undefined)` reads "undefined". */
  function CreateAsWritten(storage: map<string, string>): (s: Stored)
    ensures var m := SavedOr(storage, "undefined");
      m in Modes ==> s == Stored(ColorBlindManager(m, Modes[m]), storage[StorageKey := m])
    ensures var m := SavedOr(storage, "undefined");
      m in InheritedNames ==> s.manager == ColorBlindManager(m, NoFilter)
  {
    var saved := SavedOr(storage, "undefined");
    ApplyModeAsWritten(ColorBlindManager(saved, ""), storage, saved)
  }

  /** Applying a mode twice is applying it once. */
  lemma ApplyIdempotent(c: ColorBlindManager, storage: map<string, string>, mode: string)
    ensures var s := ApplyMode(c, storage, mode);
      ApplyMode(s.manager, s.storage, mode) == s
  {
  }

  /** Starting from a known mode, only known modes are ever current. */
  lemma ApplyKeepsKnownMode(c: ColorBlindManager, storage: map<string, string>, mode: string)
    requires c.currentMode in Modes
    ensures ApplyMode(c, storage, mode).manager.currentMode in Modes
  {
  }

  /** Corrected: a mode chosen on one visit is the mode in force on the next. */
  lemma SavedModeRestored(c: ColorBlindManager, storage: map<string, string>, mode: string)
    requires mode in Modes
    ensures Create(ApplyMode(c, storage, mode).storage).manager == ColorBlindManager(mode, Modes[mode])
  {
    var saved := ApplyMode(c, storage, mode).storage;
    assert SavedOr(saved, StorageKey) == mode;
  }

  /** As written: an inherited name passes the guard and becomes the current mode. */
  lemma AsWrittenAcceptsInheritedName(c: ColorBlindManager, storage: map<string, string>)
    ensures ApplyModeAsWritten(c, storage, "constructor").manager.currentMode == "constructor"
    ensures ApplyMode(c, storage, "constructor").manager == c
  {
    assert "constructor" !in Modes;
  }

  /** As written: protanopia saved on one visit is lost on the next, which starts
      with no filter and overwrites the saved value with "none". */
  lemma AsWrittenLosesSavedMode()
    ensures var storage := map[StorageKey := "protanopia"];
      && CreateAsWritten(storage).manager.currentMode == "none"
      && CreateAsWritten(storage).storage[StorageKey] == "none"
      && Create(storage).manager.currentMode == "protanopia"
  {
    var storage := map[StorageKey := "protanopia"];
    assert "undefined" !in storage;
    assert SavedOr(storage, StorageKey) == "protanopia";
  }
}

=== FILE: keyboard_help.dfy ===
/** The keyboard-shortcut help dialog: one button opens it and closes it again.
    Opening the dialog installs a document-level key listener that closes it on
    Escape or F12 and then removes itself.

    The page script removes that listener only from inside the listener, so a
    dialog closed with the button leaves its listener behind, and the next Escape
    or F12 is swallowed although no dialog is open (`CloseModalAsWritten`). The
    corrected `CloseModal` removes the listener with the dialog. */
module KeyboardHelp {

  /** `modalShown` is whether the dialog element is in the document;
      `listeners` counts the dialog key listeners still installed. */
  datatype KeyboardHelpManager = KeyboardHelpManager(isOpen: bool, modalShown: bool, listeners: nat)

  function Create(): (h: KeyboardHelpManager)
    ensures !h.isOpen && !h.modalShown && h.listeners == 0
  {
    KeyboardHelpManager(false, false, 0)
  }

  /** `createAndShowModal`: the dialog is shown and one more listener installed. */
  function Open(h: KeyboardHelpManager): (r: KeyboardHelpManager)
    ensures r.isOpen && r.modalShown && r.listeners == h.listeners + 1
  {
    KeyboardHelpManager(true, true, h.listeners + 1)
  }

  /** `closeModal` as written: the dialog goes, its listener stays. */
  function CloseModalAsWritten(h: KeyboardHelpManager): (r: KeyboardHelpManager)
    ensures !r.isOpen && !r.modalShown && r.listeners == h.listeners
  {
    KeyboardHelpManager(false, false, h.listeners)
  }

  /** `closeModal`, corrected: the dialog and its listener both go. */
  function CloseModal(h: KeyboardHelpManager): (r: KeyboardHelpManager)
    ensures !r.isOpen && !r.modalShown && r.listeners == 0
  {
    KeyboardHelpManager(false, false, 0)
  }

  /** `showKeyboardHelp` as written: closes the help when it is open, otherwise opens it. */
  function ShowKeyboardHelpAsWritten(h: KeyboardHelpManager): (r: KeyboardHelpManager)
    ensures h.isOpen ==> r == CloseModalAsWritten(h)
    ensures !h.isOpen ==> r == Open(h)
  {
    if h.isOpen then CloseModalAsWritten(h) else Open(h)
  }

  /** `showKeyboardHelp` over the corrected `CloseModal`. */
  function ShowKeyboardHelp(h: KeyboardHelpManager): (r: KeyboardHelpManager)
    ensures h.isOpen ==> r == CloseModal(h)
    ensures !h.isOpen ==> r == Open(h)
  {
    if h.isOpen then CloseModal(h) else Open(h)
  }

  /** A key press seen by the installed dialog listeners. On Escape or F12 each
      of them suppresses the browser default, closes the help and removes
      itself; with no listener installed nothing happens. The flag says whether
      the default was suppressed. */
  function HandleKey(h: KeyboardHelpManager, key: string): (r: (KeyboardHelpManager, bool))
    ensures r.1 <==> (key == "Escape" || key == "F12") && h.listeners > 0
    ensures r.1 ==> r.0 == CloseModal(h)
    ensures !r.1 ==> r.0 == h
  {
    if (key == "Escape" || key == "F12") && h.listeners > 0 then (CloseModal(h), true) else (h, false)
  }

  /** The dialog is shown exactly when the help is open, and exactly one
      listener is installed while it is. */
  predicate Valid(h: KeyboardHelpManager) {
    && h.isOpen == h.modalShown
    && h.listeners == (if h.isOpen then 1 else 0)
  }

  /** Every corrected operation keeps the invariant. */
  lemma OperationsKeepValid(h: KeyboardHelpManager, key: string)
    requires Valid(h)
    ensures Valid(ShowKeyboardHelp(h)) && Valid(CloseModal(h)) && Valid(HandleKey(h, key).0)
  {
  }

  /** With the correction, a key is swallowed only while the help is open. */
  lemma ClosedHelpSwallowsNothing(h: KeyboardHelpManager, key: string)
    requires Valid(h)
    ensures HandleKey(h, key).1 <==> h.isOpen && (key == "Escape" || key == "F12")
  {
  }

  /** Pressing the help button twice returns to where it started. */
  lemma ShowTwiceRestores(h: KeyboardHelpManager)
    requires Valid(h)
    ensures ShowKeyboardHelp(ShowKeyboardHelp(h)) == h
  {
  }

  /** As written: open the help, close it with the button, and F12 is still
      swallowed; the corrected close lets it through. */
  lemma AsWrittenSwallowsKeyAfterClose()
    ensures var h := ShowKeyboardHelpAsWritten(ShowKeyboardHelpAsWritten(Create()));
      !h.isOpen && HandleKey(h, "F12").1
    ensures var h := ShowKeyboardHelp(ShowKeyboardHelp(Create()));
      !h.isOpen && !HandleKey(h, "F12").1
  {
  }
}

=== FILE: line_reader.dfy ===
/** The line reader: a cursor over the page's text lines that reads the next or
    previous line aloud, wrapping around at both ends. The cursor starts at -1
    ("nothing read yet"). The line list is collected from the page the first
    time it is needed; that collection is the `discovered` parameter. */
module LineReader {
  import opened Wrappers
  import opened Speech

  datatype LineReaderManager = LineReaderManager(currentLineIndex: int, lines: seq<string>, isSpeaking: bool)

  /** What one read produced: a line handed to the speech manager, the prompt to
      enable speech, or nothing. */
  datatype Reading = Spoken(text: string) | Announced(message: string) | Silent

  /** Result of one read: the next state and what was said. */
  datatype Read = Read(after: LineReaderManager, reading: Reading)

  function Create(): (lr: LineReaderManager)
    ensures lr.currentLineIndex == -1 && lr.lines == [] && !lr.isSpeaking
  {
    LineReaderManager(-1, [], false)
  }

  /** The cursor invariant: -1 or a valid line; with no lines collected the
      cursor can still sit at 0, where `readNextLine` leaves it. */
  predicate Valid(lr: LineReaderManager) {
    && -1 <= lr.currentLineIndex
    && (lr.lines != [] ==> lr.currentLineIndex < |lr.lines|)
    && (lr.lines == [] ==> lr.currentLineIndex <= 0)
  }

  /** `readLine`: speaks line `index` when it exists and speech is available and enabled. */
  function ReadLine(lr: LineReaderManager, index: int, speech: Option<SpeechManager>): (r: Read)
    ensures r.after.currentLineIndex == lr.currentLineIndex && r.after.lines == lr.lines
    ensures r.reading.Spoken? <==> 0 <= index < |lr.lines| && speech.Some? && speech.value.enabled
    ensures r.reading.Spoken? ==> r.reading.text == lr.lines[index] && r.after.isSpeaking
    ensures r.reading.Announced? <==> 0 <= index < |lr.lines| && speech.Some? && !speech.value.enabled
    ensures r.reading.Announced? ==> r.reading.message == EnableSpeechFirst
    ensures !r.reading.Spoken? ==> r.after == lr
  {
    if index < 0 || index >= |lr.lines| then Read(lr, Silent)
    else if speech.None? then Read(lr, Silent)
    else if !speech.value.enabled then Read(lr, Announced(EnableSpeechFirst))
    else Read(lr.(isSpeaking := true), Spoken(lr.lines[index]))
  }

  /** The lines in use: those already collected, or the discovered ones if none were. */
  function LinesFor(lr: LineReaderManager, discovered: seq<string>): (ls: seq<string>)
    ensures lr.lines != [] ==> ls == lr.lines
    ensures ls == [] <==> lr.lines == [] && discovered == []
  {
    if |lr.lines| == 0 then discovered else lr.lines
  }

  /** `readNextLine`: from -1 go to the first line, otherwise one line on,
      wrapping to the first line past the end; then read that line. */
  function ReadNextLine(lr: LineReaderManager, discovered: seq<string>, speech: Option<SpeechManager>): (r: Read)
    requires Valid(lr)
    ensures Valid(r.after)
    ensures r.after.lines == LinesFor(lr, discovered)
    ensures r.after.lines != [] ==> 0 <= r.after.currentLineIndex < |r.after.lines|
    ensures lr.currentLineIndex == -1 ==> r.after.currentLineIndex == 0
    ensures 0 <= lr.currentLineIndex && lr.currentLineIndex + 1 < |r.after.lines|
            ==> r.after.currentLineIndex == lr.currentLineIndex + 1
    ensures lr.currentLineIndex + 1 >= |r.after.lines| ==> r.after.currentLineIndex == 0
    ensures r.after.lines != [] && speech.Some? && speech.value.enabled
            ==> r.reading == Spoken(r.after.lines[r.after.currentLineIndex])
    // with speech switched off the prompt is announced; without lines or speech nothing is said
    ensures r.after.lines != [] && speech.Some? && !speech.value.enabled
            ==> r.reading == Announced(EnableSpeechFirst)
    ensures r.after.lines == [] || speech.None? ==> r.reading == Silent
    ensures r.after.isSpeaking == (lr.isSpeaking || r.reading.Spoken?)
  {
    var lr1 := lr.(lines := LinesFor(lr, discovered));
    var i := if lr1.currentLineIndex == -1 then 0 else lr1.currentLineIndex + 1;
    var i' := if i >= |lr1.lines| then 0 else i;
    ReadLine(lr1.(currentLineIndex := i'), i', speech)
  }

  /** `readPreviousLine`: nothing to do at -1 (beyond collecting the lines);
      otherwise one line back, wrapping to the last line before the start. */
  function ReadPreviousLine(lr: LineReaderManager, discovered: seq<string>, speech: Option<SpeechManager>): (r: Read)
    requires Valid(lr)
    ensures Valid(r.after)
    ensures r.after.lines == LinesFor(lr, discovered)
    ensures lr.currentLineIndex == -1 ==> r == Read(lr.(lines := LinesFor(lr, discovered)), Silent)
    ensures 0 < lr.currentLineIndex ==> r.after.currentLineIndex == lr.currentLineIndex - 1
    ensures lr.currentLineIndex == 0 ==> r.after.currentLineIndex == |r.after.lines| - 1
    ensures 0 <= lr.currentLineIndex && r.after.lines != [] && speech.Some? && speech.value.enabled
            ==> r.reading == Spoken(r.after.lines[r.after.currentLineIndex])
    // with speech switched off the prompt is announced; without lines or speech nothing is said
    ensures 0 <= lr.currentLineIndex && r.after.lines != [] && speech.Some? && !speech.value.enabled
            ==> r.reading == Announced(EnableSpeechFirst)
    ensures r.after.lines == [] || speech.None? ==> r.reading == Silent
    ensures r.after.isSpeaking == (lr.isSpeaking || r.reading.Spoken?)
  {
    var lr1 := lr.(lines := LinesFor(lr, discovered));
    if lr1.currentLineIndex == -1 then Read(lr1, Silent)
    else
      var i := lr1.currentLineIndex - 1;
      var i' := if i < 0 then |lr1.lines| - 1 else i;
      ReadLine(lr1.(currentLineIndex := i'), i', speech)
  }

  /** `stop`: speech is cancelled and the reader is no longer speaking. */
  function Stop(lr: LineReaderManager): (r: LineReaderManager)
    ensures !r.isSpeaking
    ensures r.(isSpeaking := lr.isSpeaking) == lr
  {
    lr.(isSpeaking := false)
  }

  /** Reading the next line and then the previous one returns to the starting line. */
  lemma PreviousUndoesNext(lr: LineReaderManager, speech: Option<SpeechManager>)
    requires Valid(lr) && lr.lines != [] && 0 <= lr.currentLineIndex
    ensures ReadPreviousLine(ReadNextLine(lr, [], speech).after, [], speech).after.currentLineIndex
            == lr.currentLineIndex
  {
  }

  /** Reading the previous line and then the next one returns to the starting line. */
  lemma NextUndoesPrevious(lr: LineReaderManager, speech: Option<SpeechManager>)
    requires Valid(lr) && lr.lines != [] && 0 <= lr.currentLineIndex
    ensures ReadNextLine(ReadPreviousLine(lr, [], speech).after, [], speech).after.currentLineIndex
            == lr.currentLineIndex
  {
  }

  /** `k` presses of "next line" from a line. */
  function NextTimes(lr: LineReaderManager, k: nat): (r: LineReaderManager)
    requires Valid(lr)
    ensures Valid(r) && r.lines == lr.lines
  {
    if k == 0 then lr else ReadNextLine(NextTimes(lr, k - 1), [], None).after
  }

  /** Pressing `a` times and then `b` times is pressing `a + b` times. */
  lemma {:induction false} NextTimesCompose(lr: LineReaderManager, a: nat, b: nat, total: nat)
    requires Valid(lr) && total == a + b
    ensures NextTimes(lr, total) == NextTimes(NextTimes(lr, a), b)
    decreases b
  {
    if b > 0 {
      NextTimesCompose(lr, a, b - 1, total - 1);
    }
  }

  /** Before the end of the list, `k` presses move the cursor exactly `k` lines on. */
  lemma {:induction false} NextTimesAdvances(lr: LineReaderManager, k: nat)
    requires Valid(lr) && 0 <= lr.currentLineIndex
    requires lr.currentLineIndex + k < |lr.lines|
    ensures NextTimes(lr, k).currentLineIndex == lr.currentLineIndex + k
  {
    if k > 0 {
      NextTimesAdvances(lr, k - 1);
    }
  }

  /** Lines are collected once: after a read has found lines, later reads keep
      them whatever the page now holds. */
  lemma CollectedLinesKept(lr: LineReaderManager, d1: seq<string>, d2: seq<string>, speech: Option<SpeechManager>)
    requires Valid(lr) && LinesFor(lr, d1) != []
    ensures var r := ReadNextLine(lr, d1, speech).after;
      && ReadNextLine(r, d2, speech).after.lines == LinesFor(lr, d1)
      && ReadPreviousLine(r, d2, speech).after.lines == LinesFor(lr, d1)
    ensures var r := ReadPreviousLine(lr, d1, speech).after;
      && ReadNextLine(r, d2, speech).after.lines == LinesFor(lr, d1)
      && ReadPreviousLine(r, d2, speech).after.lines == LinesFor(lr, d1)
  {
  }

  /** From the last line, one press wraps to the first. */
  lemma WrapsAtEnd(lr: LineReaderManager)
    requires Valid(lr) && lr.lines != [] && lr.currentLineIndex == |lr.lines| - 1
    ensures NextTimes(lr, 1).currentLineIndex == 0
  {
    assert NextTimes(lr, 1) == ReadNextLine(lr, [], None).after;
  }

  /** From line `i`, `n - i` presses reach the first line. */
  lemma ReachesFirst(lr: LineReaderManager, k: nat)
    requires Valid(lr) && lr.lines != [] && 0 <= lr.currentLineIndex
    requires k == |lr.lines| - lr.currentLineIndex
    ensures NextTimes(lr, k).currentLineIndex == 0
  {
    var toLast: nat := k - 1;
    NextTimesAdvances(lr, toLast);
    WrapsAtEnd(NextTimes(lr, toLast));
    NextTimesCompose(lr, toLast, 1, k);
  }

  /** A full round of "next line" presses, one per line, comes back to the
      starting line: the cursor walks the lines cyclically. */
  lemma FullCycleReturns(lr: LineReaderManager)
    requires Valid(lr) && lr.lines != [] && 0 <= lr.currentLineIndex
    ensures NextTimes(lr, |lr.lines|).currentLineIndex == lr.currentLineIndex
  {
    var toFirst: nat := |lr.lines| - lr.currentLineIndex;
    ReachesFirst(lr, toFirst);
    NextTimesAdvances(NextTimes(lr, toFirst), lr.currentLineIndex);
    NextTimesCompose(lr, toFirst, lr.currentLineIndex, |lr.lines|);
  }
}

=== FILE: speech.dfy ===
/** The speech manager's switches: whether speech is enabled at all, and whether
    hovering over text reads it aloud. The synthesis engines themselves are not
    part of this model. */
module Speech {

  const EnableSpeechFirst: string := "请先启用语音功能"
  const HoverReadOn: string := "鼠标悬停阅读已启用"
  const HoverReadOff: string := "鼠标悬停阅读已禁用"
  const SpeechOn: string := "语音功能已启用"
  const SpeechOff: string := "语音功能已禁用"

  datatype SpeechManager = SpeechManager(enabled: bool, hoverReadEnabled: bool)

  /** A change of the switches together with the message announced to screen readers. */
  datatype Toggled = Toggled(after: SpeechManager, announced: string)

  /** A fresh manager with nothing stored: speech off, hover reading off. */
  function Create(): (s: SpeechManager)
    ensures !s.enabled && !s.hoverReadEnabled
  {
    SpeechManager(false, false)
  }

  /** `toggleEnabled`: flips the master switch and announces the new state. */
  function ToggleEnabled(s: SpeechManager): (t: Toggled)
    ensures t.after.enabled != s.enabled
    ensures t.after.hoverReadEnabled == s.hoverReadEnabled
    ensures t.announced == (if t.after.enabled then SpeechOn else SpeechOff)
  {
    var after := s.(enabled := !s.enabled);
    Toggled(after, if after.enabled then SpeechOn else SpeechOff)
  }

  /** `toggleHoverRead`: refused, with a prompt, while speech is disabled;
      otherwise flips hover reading and announces the new state. */
  function ToggleHoverRead(s: SpeechManager): (t: Toggled)
    ensures !s.enabled ==> t == Toggled(s, EnableSpeechFirst)
    ensures s.enabled ==> t.after.enabled && t.after.hoverReadEnabled != s.hoverReadEnabled
    ensures s.enabled ==> t.announced == (if t.after.hoverReadEnabled then HoverReadOn else HoverReadOff)
  {
    if !s.enabled then Toggled(s, EnableSpeechFirst)
    else
      var after := s.(hoverReadEnabled := !s.hoverReadEnabled);
      Toggled(after, if after.hoverReadEnabled then HoverReadOn else HoverReadOff)
  }

  /** Toggling hover reading twice restores the switches, whether or not speech is enabled. */
  lemma HoverReadInvolution(s: SpeechManager)
    ensures ToggleHoverRead(ToggleHoverRead(s).after).after == s
  {
  }

  /** Toggling the master switch twice restores the switches. */
  lemma EnabledInvolution(s: SpeechManager)
    ensures ToggleEnabled(ToggleEnabled(s).after).after == s
  {
  }
}

=== FILE: theme.dfy ===
/** Light/dark theme switching. The theme is a class `theme-<name>` on the root
    element; `applyTheme` removes the light and dark classes and adds the new one. */
module Theme {
  import opened Wrappers

  const Light: string := "light"
  const Dark: string := "dark"
  const DefaultTheme: string := Light
  const ToDarkMessage: string := "已切换到深色模式"
  const ToLightMessage: string := "已切换到浅色模式"

  /** `rootClasses` is the class list of the document's root element. */
  datatype ThemeManager = ThemeManager(currentTheme: string, rootClasses: set<string>)

  function ClassFor(theme: string): string { "theme-" + theme }

  /** Different theme names give different classes. */
  lemma ClassForInjective(a: string, b: string)
    ensures ClassFor(a) == ClassFor(b) <==> a == b
  {
    if ClassFor(a) == ClassFor(b) {
      assert a == ClassFor(a)[6..] == ClassFor(b)[6..] == b;
    }
  }

  /** `applyTheme`: any name is accepted and becomes the current theme. */
  function ApplyTheme(t: ThemeManager, theme: string): (r: ThemeManager)
    ensures r.currentTheme == theme
    ensures ClassFor(theme) in r.rootClasses
    ensures ClassFor(Light) in r.rootClasses <==> theme == Light
    ensures ClassFor(Dark) in r.rootClasses <==> theme == Dark
    ensures forall c :: c in r.rootClasses && c != ClassFor(theme) ==> c in t.rootClasses
    ensures forall c :: c in t.rootClasses && c != ClassFor(Light) && c != ClassFor(Dark) ==> c in r.rootClasses
  {
    ClassForInjective(theme, Light);
    ClassForInjective(theme, Dark);
    ThemeManager(theme, t.rootClasses - {ClassFor(Light), ClassFor(Dark)} + {ClassFor(theme)})
  }

  /** The constructor: the stored theme, or the default (light) when nothing or
      the empty string is stored, is applied to the root element. */
  function Create(rootClasses: set<string>, stored: Option<string>): (t: ThemeManager)
    ensures stored.None? || stored == Some("") ==> t.currentTheme == Light
    ensures stored.Some? && stored.value != "" ==> t.currentTheme == stored.value
    ensures ClassFor(t.currentTheme) in t.rootClasses
  {
    var theme := if stored.Some? && stored.value != "" then stored.value else DefaultTheme;
    ApplyTheme(ThemeManager(theme, rootClasses), theme)
  }

  /** `toggleTheme`: light becomes dark, and anything else becomes light; the
      announcement names the theme switched to. */
  function ToggleTheme(t: ThemeManager): (r: (ThemeManager, string))
    ensures t.currentTheme == Light ==> r.0.currentTheme == Dark && r.1 == ToDarkMessage
    ensures t.currentTheme != Light ==> r.0.currentTheme == Light && r.1 == ToLightMessage
    ensures ClassFor(r.0.currentTheme) in r.0.rootClasses
    ensures (ClassFor(Light) in r.0.rootClasses) != (ClassFor(Dark) in r.0.rootClasses)
  {
    var newTheme := if t.currentTheme == Light then Dark else Light;
    (ApplyTheme(t, newTheme), if newTheme == Dark then ToDarkMessage else ToLightMessage)
  }

  /** Toggling twice restores the theme exactly when it was light or dark; a
      stored theme of any other name comes back as dark. */
  lemma ToggleTwice(t: ThemeManager)
    ensures ToggleTheme(ToggleTheme(t).0).0.currentTheme == t.currentTheme
            <==> t.currentTheme == Light || t.currentTheme == Dark
    ensures t.currentTheme != Light ==> ToggleTheme(ToggleTheme(t).0).0.currentTheme == Dark
  {
  }
}

=== FILE: voice_commands.dfy ===
/** Voice commands: a recognised transcript is normalised (lower-cased and
    trimmed), the command table is searched in order for the first phrase the
    text contains, and that command's action runs on the other components. When
    speech is enabled afterwards, the command is confirmed aloud, except for the
    two line-reading commands, whose reading is its own feedback. */
module VoiceCommands {
  import opened Wrappers
  import Zoom
  import Waterfall
  import WaterfallEvents
  import Speech
  import LineReader

  datatype Command =
    | ZoomIn | ZoomOut | ZoomReset
    | ScrollDown | ScrollUp
    | EnableReading | DisableReading
    | NextLine | PreviousLine

  /** The phrase that triggers each command. */
  function Phrase(c: Command): string {
    match c
    case ZoomIn => "放大"
    case ZoomOut => "缩小"
    case ZoomReset => "重置"
    case ScrollDown => "下滑"
    case ScrollUp => "上滑"
    case EnableReading => "启用朗读"
    case DisableReading => "关闭朗读"
    case NextLine => "下一行"
    case PreviousLine => "上一行"
  }

  /** The command table in its declaration order, which is the order of the search. */
  const Table: seq<Command> :=
    [ZoomIn, ZoomOut, ZoomReset, ScrollDown, ScrollUp, EnableReading, DisableReading, NextLine, PreviousLine]

  /** Where a command sits in the table. */
  function Position(c: Command): (i: nat)
    ensures i < |Table| && Table[i] == c
  {
    match c
    case ZoomIn => 0
    case ZoomOut => 1
    case ZoomReset => 2
    case ScrollDown => 3
    case ScrollUp => 4
    case EnableReading => 5
    case DisableReading => 6
    case NextLine => 7
    case PreviousLine => 8
  }

  /** The table lists every command once. */
  lemma PositionOfEntry(i: nat)
    requires i < |Table|
    ensures Position(Table[i]) == i
  {
  }

  const FeedbackPrefix: string := "已执行："

  /** `pat` occurs in `text` starting at index `i`. */
  predicate OccursAt(text: string, pat: string, i: int) {
    0 <= i <= |text| - |pat| && text[i..i + |pat|] == pat
  }

  /** `text.includes(pat)`. */
  predicate Contains(text: string, pat: string) {
    exists i :: 0 <= i <= |text| - |pat| && OccursAt(text, pat, i)
  }

  /** A transcript asks for a command when it contains the command's phrase. */
  predicate Matches(text: string, c: Command) {
    Contains(text, Phrase(c))
  }

  /** Characters `String.prototype.trim` removes: white space and line terminators. */
  predicate IsJsSpace(ch: char) {
    || ch == ' ' || ch == '\t' || ch == '\n' || ch == '\r' || ch == '\U{B}' || ch == '\U{C}'
    || ch == '\U{A0}' || ch == '\U{1680}' || ('\U{2000}' <= ch <= '\U{200A}')
    || ch == '\U{2028}' || ch == '\U{2029}' || ch == '\U{202F}' || ch == '\U{205F}'
    || ch == '\U{3000}' || ch == '\U{FEFF}'
  }

  predicate IsAsciiLetter(ch: char) {
    ('A' <= ch <= 'Z') || ('a' <= ch <= 'z')
  }

  function LowerChar(ch: char): char {
    if 'A' <= ch <= 'Z' then (ch as int + 32) as char else ch
  }

  /** `toLowerCase`, on the ASCII letters. */
  function Lower(s: string): (r: string)
    ensures |r| == |s|
    ensures forall k :: 0 <= k < |s| ==> r[k] == LowerChar(s[k])
  {
    seq(|s|, k requires 0 <= k < |s| => LowerChar(s[k]))
  }

  /** The first index at or after `i` that is not white space. */
  function SkipStart(s: string, i: nat): (r: nat)
    requires i <= |s|
    ensures i <= r <= |s|
    ensures forall k :: i <= k < r ==> IsJsSpace(s[k])
    ensures r < |s| ==> !IsJsSpace(s[r])
    decreases |s| - i
  {
    if i < |s| && IsJsSpace(s[i]) then SkipStart(s, i + 1) else i
  }

  /** The end of `s[lo..j]` with the trailing white space dropped. */
  function SkipEnd(s: string, lo: nat, j: nat): (r: nat)
    requires lo <= j <= |s|
    ensures lo <= r <= j
    ensures forall k :: r <= k < j ==> IsJsSpace(s[k])
    ensures r > lo ==> !IsJsSpace(s[r - 1])
  {
    if j > lo && IsJsSpace(s[j - 1]) then SkipEnd(s, lo, j - 1) else j
  }

  /** Every character of `s[lo..hi]` is white space. */
  predicate AllSpace(s: string, lo: nat, hi: nat)
    requires lo <= hi <= |s|
  {
    forall k :: lo <= k < hi ==> IsJsSpace(s[k])
  }

  /** `trim`: the white space at both ends removed, and nothing else; what is
      left neither starts nor ends with white space. */
  function Trim(s: string): (r: string)
    ensures r == [] || (!IsJsSpace(r[0]) && !IsJsSpace(r[|r| - 1]))
    ensures exists a, b :: && 0 <= a <= b <= |s| && r == s[a..b]
                           && AllSpace(s, 0, a) && AllSpace(s, b, |s|)
  {
    var a := SkipStart(s, 0);
    var b := SkipEnd(s, a, |s|);
    assert b > a ==> s[a..b][0] == s[a];
    s[a..b]
  }

  /** Trimming twice is trimming once. */
  lemma TrimIdempotent(s: string)
    ensures Trim(Trim(s)) == Trim(s)
  {
    var t := Trim(s);
    assert SkipStart(t, 0) == 0;
    assert SkipEnd(t, 0, |t|) == |t|;
    assert t[0..|t|] == t;
  }

  /** The text `processCommand` searches: lower-cased, then trimmed. */
  function Normalise(transcript: string): (r: string)
    ensures |r| <= |transcript|
    ensures r == [] || (!IsJsSpace(r[0]) && !IsJsSpace(r[|r| - 1]))
    ensures NoAsciiUpper(r)
  {
    var l := Lower(transcript);
    var a := SkipStart(l, 0);
    var b := SkipEnd(l, a, |l|);
    SliceKeepsNoUpper(l, a, b);
    Trim(l)
  }

  predicate NoAsciiUpper(s: string) {
    forall k :: 0 <= k < |s| ==> !('A' <= s[k] <= 'Z')
  }

  lemma SliceKeepsNoUpper(s: string, a: nat, b: nat)
    requires a <= b <= |s| && NoAsciiUpper(s)
    ensures NoAsciiUpper(s[a..b])
  {
    forall k | 0 <= k < b - a
      ensures !('A' <= s[a..b][k] <= 'Z')
    {
      assert s[a..b][k] == s[a + k];
    }
  }

  /** A phrase with neither white space nor Latin letters: every command phrase. */
  predicate Plain(pat: string) {
    forall k :: 0 <= k < |pat| ==> !IsJsSpace(pat[k]) && !IsAsciiLetter(pat[k])
  }

  lemma PhrasesArePlain(c: Command)
    ensures |Phrase(c)| > 0 && Plain(Phrase(c))
  {
  }

  /** Lower-casing does not change whether a plain phrase occurs. */
  lemma LowerKeepsContains(s: string, pat: string)
    requires Plain(pat)
    ensures Contains(Lower(s), pat) <==> Contains(s, pat)
  {
    var ls := Lower(s);
    if Contains(ls, pat) {
      var i :| 0 <= i <= |ls| - |pat| && OccursAt(ls, pat, i);
      forall k | 0 <= k < |pat|
        ensures s[i + k] == pat[k]
      {
        assert ls[i + k] == pat[k];
      }
      assert OccursAt(s, pat, i);
    }
    if Contains(s, pat) {
      var i :| 0 <= i <= |s| - |pat| && OccursAt(s, pat, i);
      forall k | 0 <= k < |pat|
        ensures ls[i + k] == pat[k]
      {
        assert s[i + k] == pat[k];
      }
      assert OccursAt(ls, pat, i);
    }
  }

  lemma SliceOfSlice(s: string, a: nat, b: nat, j: nat, m: nat)
    requires a <= b <= |s| && j + m <= b - a
    ensures s[a..b][j..j + m] == s[a + j..a + j + m]
  {
    var u, v := s[a..b][j..j + m], s[a + j..a + j + m];
    assert |u| == |v| == m;
    forall k | 0 <= k < m
      ensures u[k] == v[k]
    {
      assert u[k] == s[a + j + k] == v[k];
    }
  }

  /** An occurrence in the slice is an occurrence in the whole text. */
  lemma SliceOccurrenceLifts(s: string, a: nat, b: nat, pat: string, j: nat)
    requires a <= b <= |s| && j + |pat| <= b - a
    requires OccursAt(s[a..b], pat, j)
    ensures OccursAt(s, pat, a + j)
  {
    SliceOfSlice(s, a, b, j, |pat|);
  }

  /** An occurrence of a phrase that neither starts nor ends with white space
      lies inside the slice between white-space-only ends. */
  lemma OccurrenceInsideSlice(s: string, a: nat, b: nat, pat: string, i: nat)
    requires a <= b <= |s|
    requires forall k :: 0 <= k < a ==> IsJsSpace(s[k])
    requires forall k :: b <= k < |s| ==> IsJsSpace(s[k])
    requires |pat| > 0 && Plain(pat)
    requires OccursAt(s, pat, i)
    ensures a <= i && i + |pat| <= b && OccursAt(s[a..b], pat, i - a)
  {
    assert s[i] == s[i..i + |pat|][0] == pat[0];
    assert s[i + |pat| - 1] == s[i..i + |pat|][|pat| - 1] == pat[|pat| - 1];
    SliceOfSlice(s, a, b, i - a, |pat|);
  }

  /** Dropping white space at the ends does not change whether a non-empty
      phrase without white space occurs. */
  lemma SliceKeepsContains(s: string, a: nat, b: nat, pat: string)
    requires a <= b <= |s|
    requires forall k :: 0 <= k < a ==> IsJsSpace(s[k])
    requires forall k :: b <= k < |s| ==> IsJsSpace(s[k])
    requires |pat| > 0 && Plain(pat)
    ensures Contains(s[a..b], pat) <==> Contains(s, pat)
  {
    if Contains(s[a..b], pat) {
      var j :| 0 <= j <= |s[a..b]| - |pat| && OccursAt(s[a..b], pat, j);
      SliceOccurrenceLifts(s, a, b, pat, j);
    }
    if Contains(s, pat) {
      var i :| 0 <= i <= |s| - |pat| && OccursAt(s, pat, i);
      OccurrenceInsideSlice(s, a, b, pat, i);
    }
  }

  /** Normalising a transcript never changes which commands it asks for. */
  lemma NormaliseKeepsMatches(transcript: string, c: Command)
    ensures Matches(Normalise(transcript), c) <==> Matches(transcript, c)
  {
    PhrasesArePlain(c);
    var l := Lower(transcript);
    var a := SkipStart(l, 0);
    var b := SkipEnd(l, a, |l|);
    SliceKeepsContains(l, a, b, Phrase(c));
    LowerKeepsContains(transcript, Phrase(c));
  }

  /** `includes`, by scanning every start position. */
  method Includes(text: string, pat: string) returns (found: bool)
    ensures found <==> Contains(text, pat)
  {
    if |pat| > |text| {
      return false;
    }
    var i := 0;
    while i <= |text| - |pat|
      invariant 0 <= i <= |text| - |pat| + 1
      invariant forall k :: 0 <= k < i ==> !OccursAt(text, pat, k)
    {
      if text[i..i + |pat|] == pat {
        assert OccursAt(text, pat, i);
        return true;
      }
      i := i + 1;
    }
    return false;
  }

  /** Whether the normalised `text` of `transcript` contains the phrase of `c`. */
  method Asks(text: string, transcript: string, c: Command) returns (found: bool)
    requires text == Normalise(transcript)
    ensures found <==> Matches(transcript, c)
  {
    found := Includes(text, Phrase(c));
    NormaliseKeepsMatches(transcript, c);
  }

  /** A transcript that matches no table entry matches no command. */
  lemma TableCovers(transcript: string)
    requires forall j :: 0 <= j < |Table| ==> !Matches(transcript, Table[j])
    ensures forall c :: !Matches(transcript, c)
  {
    forall c ensures !Matches(transcript, c) {
      assert Table[Position(c)] == c;
    }
  }

  /** `processCommand`'s search: the first command in table order whose phrase
      the normalised transcript contains, or none. */
  method FindCommand(transcript: string) returns (r: Option<Command>)
    ensures r.Some? ==> Matches(transcript, r.value)
    ensures r.Some? ==> forall j :: 0 <= j < Position(r.value) ==> !Matches(transcript, Table[j])
    ensures r.None? <==> forall c :: !Matches(transcript, c)
  {
    var text := Normalise(transcript);
    var i := 0;
    while i < |Table|
      invariant 0 <= i <= |Table|
      invariant forall j :: 0 <= j < i ==> !Matches(transcript, Table[j])
    {
      var found := Asks(text, transcript, Table[i]);
      if found {
        PositionOfEntry(i);
        return Some(Table[i]);
      }
      assert forall j :: 0 <= j < i + 1 ==> !Matches(transcript, Table[j]) by {
        assert !Matches(transcript, Table[i]);
      }
      i := i + 1;
    }
    TableCovers(transcript);
    return None;
  }

  /** The components a command acts on; a missing component is `None`, as when
      its global was never created. `windowScroll` is the total the window was
      asked to scroll by when no navigator exists; `spoken` and `announced` are
      what went to the synthesiser and to the screen-reader live region. */
  datatype App = App(
    zoom: Option<Zoom.ZoomManager>,
    navigator: Option<Waterfall.Navigator>,
    windowScroll: int,
    speech: Option<Speech.SpeechManager>,
    lineReader: Option<LineReader.LineReaderManager>,
    spoken: seq<string>,
    announced: seq<string>)

  predicate Valid(app: App) {
    && (app.navigator.Some? ==> Waterfall.Valid(app.navigator.value))
    && (app.lineReader.Some? ==> LineReader.Valid(app.lineReader.value))
  }

  predicate IsZoomCommand(c: Command) {
    c == ZoomIn || c == ZoomOut || c == ZoomReset
  }

  predicate IsScrollCommand(c: Command) {
    c == ScrollDown || c == ScrollUp
  }

  predicate IsReadingSwitch(c: Command) {
    c == EnableReading || c == DisableReading
  }

  predicate IsLineCommand(c: Command) {
    c == NextLine || c == PreviousLine
  }

  /** The zoom commands run the zoom step and announce its message; without a
      zoom manager they do nothing. */
  function ZoomAct(app: App, c: Command): (r: App)
    requires IsZoomCommand(c)
    ensures app.zoom.None? ==> r == app
    ensures app.zoom.Some? && c == ZoomIn ==> var ch := Zoom.IncreaseZoom(app.zoom.value);
      r == app.(zoom := Some(ch.after), announced := app.announced + [ch.announced])
    ensures app.zoom.Some? && c == ZoomOut ==> var ch := Zoom.DecreaseZoom(app.zoom.value);
      r == app.(zoom := Some(ch.after), announced := app.announced + [ch.announced])
    ensures app.zoom.Some? && c == ZoomReset ==> var ch := Zoom.ResetZoom(app.zoom.value);
      r == app.(zoom := Some(ch.after), announced := app.announced + [ch.announced])
  {
    if app.zoom.None? then app
    else
      var ch := match c
        case ZoomIn => Zoom.IncreaseZoom(app.zoom.value)
        case ZoomOut => Zoom.DecreaseZoom(app.zoom.value)
        case _ => Zoom.ResetZoom(app.zoom.value);
      Announce(app.(zoom := Some(ch.after)), ch.announced)
  }

  /** The scroll commands step the navigator, or without one scroll the window
      by one viewport. */
  function ScrollAct(app: App, c: Command, viewport: int): (r: App)
    requires IsScrollCommand(c)
    requires Valid(app)
    ensures Valid(r)
    ensures app.navigator.Some? && c == ScrollDown ==>
      r == app.(navigator := Some(Waterfall.NextBox(app.navigator.value).after))
    ensures app.navigator.Some? && c == ScrollUp ==>
      r == app.(navigator := Some(Waterfall.PreviousBox(app.navigator.value).after))
    ensures app.navigator.None? && c == ScrollDown ==> r == app.(windowScroll := app.windowScroll + viewport)
    ensures app.navigator.None? && c == ScrollUp ==> r == app.(windowScroll := app.windowScroll - viewport)
  {
    if app.navigator.Some? then
      var e := if c == ScrollDown then WaterfallEvents.ScrollNext else WaterfallEvents.ScrollPrev;
      app.(navigator := Some(WaterfallEvents.Dispatch(app.navigator.value, e)))
    else
      app.(windowScroll := app.windowScroll + (if c == ScrollDown then viewport else -viewport))
  }

  /** The reading switches turn speech on, or off, announcing the change; a
      switch already in the asked-for position, or a missing speech manager,
      means nothing happens. */
  function SwitchAct(app: App, c: Command): (r: App)
    requires IsReadingSwitch(c)
    ensures app.speech.None? ==> r == app
    ensures app.speech.Some? && app.speech.value.enabled == (c == EnableReading) ==> r == app
    ensures app.speech.Some? && app.speech.value.enabled != (c == EnableReading) ==>
      && r.speech == Some(app.speech.value.(enabled := c == EnableReading))
      && r.announced == app.announced + [if c == EnableReading then Speech.SpeechOn else Speech.SpeechOff]
      && r.(speech := app.speech, announced := app.announced) == app
  {
    if app.speech.Some? && app.speech.value.enabled != (c == EnableReading) then
      var t := Speech.ToggleEnabled(app.speech.value);
      Announce(app.(speech := Some(t.after)), t.announced)
    else app
  }

  /** The line commands read the next or previous line. */
  function LineAct(app: App, c: Command, discovered: seq<string>): (r: App)
    requires IsLineCommand(c)
    requires Valid(app)
    ensures Valid(r)
    ensures app.lineReader.None? ==> r == app
    ensures app.lineReader.Some? && c == NextLine ==>
      r == Reader(app, LineReader.ReadNextLine(app.lineReader.value, discovered, app.speech))
    ensures app.lineReader.Some? && c == PreviousLine ==>
      r == Reader(app, LineReader.ReadPreviousLine(app.lineReader.value, discovered, app.speech))
  {
    if app.lineReader.None? then app
    else if c == NextLine then Reader(app, LineReader.ReadNextLine(app.lineReader.value, discovered, app.speech))
    else Reader(app, LineReader.ReadPreviousLine(app.lineReader.value, discovered, app.speech))
  }

  /** The action alone, without the spoken confirmation. `viewport` is the
      window's inner height, `discovered` the page's text lines. */
  function Act(app: App, c: Command, viewport: int, discovered: seq<string>): (r: App)
    requires Valid(app)
    ensures Valid(r)
    ensures IsZoomCommand(c) ==> r == ZoomAct(app, c)
    ensures IsScrollCommand(c) ==> r == ScrollAct(app, c, viewport)
    ensures IsReadingSwitch(c) ==> r == SwitchAct(app, c)
    ensures IsLineCommand(c) ==> r == LineAct(app, c, discovered)
    ensures r.zoom.Some? == app.zoom.Some? && r.navigator.Some? == app.navigator.Some?
    ensures r.speech.Some? == app.speech.Some? && r.lineReader.Some? == app.lineReader.Some?
    // nothing outside the command's own component changes
    ensures !IsReadingSwitch(c) ==> r.speech == app.speech
    ensures !IsZoomCommand(c) ==> r.zoom == app.zoom
    ensures !IsScrollCommand(c) ==> r.navigator == app.navigator && r.windowScroll == app.windowScroll
    ensures !IsLineCommand(c) ==> r.lineReader == app.lineReader && r.spoken == app.spoken
    ensures IsScrollCommand(c) ==> r.announced == app.announced
  {
    if IsZoomCommand(c) then ZoomAct(app, c)
    else if IsScrollCommand(c) then ScrollAct(app, c, viewport)
    else if IsReadingSwitch(c) then SwitchAct(app, c)
    else LineAct(app, c, discovered)
  }

  /** A message written to the screen-reader live region. */
  function Announce(app: App, message: string): (r: App)
    ensures r.announced == app.announced + [message]
    ensures r.(announced := app.announced) == app
  {
    app.(announced := app.announced + [message])
  }

  /** Records a line read: the reader's new state, and its line or prompt sent
      to speech or to the live region. */
  function Reader(app: App, read: LineReader.Read): (r: App)
    requires LineReader.Valid(read.after)
    requires Valid(app)
    ensures Valid(r)
    ensures read.reading.Spoken? ==>
      r == app.(lineReader := Some(read.after), spoken := app.spoken + [read.reading.text])
    ensures read.reading.Announced? ==>
      r == app.(lineReader := Some(read.after), announced := app.announced + [read.reading.message])
    ensures read.reading.Silent? ==> r == app.(lineReader := Some(read.after))
  {
    match read.reading
    case Spoken(text) => app.(lineReader := Some(read.after), spoken := app.spoken + [text])
    case Announced(message) => Announce(app.(lineReader := Some(read.after)), message)
    case Silent => app.(lineReader := Some(read.after))
  }

  /** One recognised command: its action, then the confirmation. */
  function Execute(app: App, c: Command, viewport: int, discovered: seq<string>): (r: App)
    requires Valid(app)
    ensures Valid(r)
    ensures var acted := Act(app, c, viewport, discovered);
      && r.(spoken := acted.spoken) == acted
      && (if acted.speech.Some? && acted.speech.value.enabled && !IsLineCommand(c)
          then r.spoken == acted.spoken + [FeedbackPrefix + Phrase(c)]
          else r.spoken == acted.spoken)
  {
    var acted := Act(app, c, viewport, discovered);
    if acted.speech.Some? && acted.speech.value.enabled && !IsLineCommand(c) then
      acted.(spoken := acted.spoken + [FeedbackPrefix + Phrase(c)])
    else acted
  }

  /** `processCommand`: the first matching command runs; a transcript that asks
      for nothing leaves every component as it was. */
  method ProcessCommand(app: App, transcript: string, viewport: int, discovered: seq<string>)
    returns (r: App, ran: Option<Command>)
    requires Valid(app)
    ensures Valid(r)
    ensures ran.None? <==> forall c :: !Matches(transcript, c)
    ensures ran.None? ==> r == app
    ensures ran.Some? ==> && Matches(transcript, ran.value)
                          && (forall j :: 0 <= j < Position(ran.value) ==> !Matches(transcript, Table[j]))
                          && r == Execute(app, ran.value, viewport, discovered)
  {
    ran := FindCommand(transcript);
    if ran.Some? {
      r := Execute(app, ran.value, viewport, discovered);
    } else {
      r := app;
    }
  }

  /** Saying "enable reading" while speech is off turns it on and is itself
      confirmed, because the check happens after the action; "disable reading"
      is never confirmed. */
  lemma ReadingSwitchFeedback(app: App, viewport: int, discovered: seq<string>)
    requires Valid(app) && app.speech.Some?
    ensures Execute(app, EnableReading, viewport, discovered).spoken == app.spoken + [FeedbackPrefix + "启用朗读"]
    ensures Execute(app, DisableReading, viewport, discovered).spoken == app.spoken
  {
  }

  /** The line commands never add a confirmation: what is spoken is at most the line itself. */
  lemma LineCommandsSpeakOnlyTheLine(app: App, c: Command, viewport: int, discovered: seq<string>)
    requires Valid(app) && IsLineCommand(c)
    ensures var r := Execute(app, c, viewport, discovered);
      r.spoken == app.spoken || (|r.spoken| == |app.spoken| + 1 && r.spoken[..|app.spoken|] == app.spoken)
  {
  }

  /** Table order decides, not position in the text: "缩小放大" zooms in. */
  lemma TableOrderWins()
    ensures Matches("缩小放大", ZoomIn) && Matches("缩小放大", ZoomOut)
    ensures Position(ZoomIn) < Position(ZoomOut)
  {
    assert OccursAt("缩小放大", Phrase(ZoomIn), 2);
    assert OccursAt("缩小放大", Phrase(ZoomOut), 0);
  }

  /** Case and surrounding white space are ignored: " 请下滑 " asks to scroll down. */
  lemma SpacedTranscript()
    ensures Matches(" 请下滑 ", ScrollDown)
  {
    assert OccursAt(" 请下滑 ", Phrase(ScrollDown), 2);
  }
}

=== FILE: waterfall.dfy ===
/** The paginated "waterfall" navigator: an ordered row of full-viewport boxes,
    one of which is active, driven by wheel, touch and keyboard input.

    The navigator is an immutable record; every operation returns the next
    record. DOM reads (the active box's scroll metrics), the clock and event
    fields are parameters. The cooldown timer that clears the lock is not a
    clock here: its expiry is the separate operation `Unlock`. */
module Waterfall {
  import opened Wrappers

  /** Milliseconds within which a second wheel event is swallowed. */
  const ScrollThrottle: int := 400
  /** Pixels of slack allowed when deciding that inner content sits at its top or bottom. */
  const BoundaryTolerance: int := 2
  /** Minimum vertical swipe, in pixels, for a touch gesture to navigate. */
  const TouchThreshold: int := 30

  /** The one CSS state class each box carries after a projection. */
  datatype BoxClass = Active | Previous | Next | Hidden

  /** What the navigator writes on one box: its state class and whether it carries `aria-current`. */
  datatype BoxView = BoxView(cls: BoxClass, ariaCurrent: bool)

  /** The detail of one `waterfallBoxChange` notification. */
  datatype BoxChange = BoxChange(currentIndex: nat, totalBoxes: nat)

  /** Live scroll metrics of the active box's `.box-content` region. */
  datatype Metrics = Metrics(scrollTop: int, scrollHeight: int, clientHeight: int,
                             scrollWidth: int, clientWidth: int)

  /** The navigator state.
      - `views` is what the boxes currently show (one entry per box);
      - `focused` is the box that last received keyboard focus;
      - `log` is every `waterfallBoxChange` notification dispatched so far, oldest first;
      - `touchStartY` is the vertical coordinate recorded by the last touchstart. */
  datatype Navigator = Navigator(
    currentIndex: nat,
    totalBoxes: nat,
    isScrolling: bool,
    lastScrollTime: int,
    touchStartY: int,
    views: seq<BoxView>,
    focused: Option<nat>,
    log: seq<BoxChange>)

  /** Result of an operation that reports whether it navigated. */
  datatype Step = Step(after: Navigator, moved: bool)

  /** Result of an input handler: the next state and whether the browser default was suppressed. */
  datatype Handled = Handled(after: Navigator, defaultPrevented: bool)

  function Min(a: int, b: int): int { if a <= b then a else b }
  function Max(a: int, b: int): int { if a >= b then a else b }
  function Abs(x: int): int { if x < 0 then -x else x }

  // ---------------------------------------------------------------------------
  // Visibility projection
  // ---------------------------------------------------------------------------

  /** The view of box `i` when box `current` is active. */
  function ViewOf(i: int, current: int): BoxView {
    if i == current then BoxView(Active, true)
    else if i == current - 1 then BoxView(Previous, false)
    else if i == current + 1 then BoxView(Next, false)
    else BoxView(Hidden, false)
  }

  /** The projection of every box's visibility from the active index. */
  function UpdateBoxStates(current: int, n: nat): (views: seq<BoxView>)
    ensures |views| == n
    ensures forall i :: 0 <= i < n ==>
      && (views[i].cls == Active <==> i == current)
      && (views[i].ariaCurrent <==> i == current)
      && (views[i].cls == Previous <==> i == current - 1)
      && (views[i].cls == Next <==> i == current + 1)
      && (views[i].cls == Hidden <==> (i < current - 1 || current + 1 < i))
  {
    seq(n, i => ViewOf(i, current))
  }

  /** Indices whose view carries the given class. */
  function IndicesOf(views: seq<BoxView>, c: BoxClass): set<int> {
    set i | 0 <= i < |views| && views[i].cls == c
  }

  /** Indices whose view carries `aria-current`. */
  function AriaCurrentIndices(views: seq<BoxView>): set<int> {
    set i | 0 <= i < |views| && views[i].ariaCurrent
  }

  /** The layout written by `init`: box 0 active, every other box hidden, none `aria-current`. */
  function InitialLayout(n: nat): seq<BoxView> {
    seq(n, i => if i == 0 then BoxView(Active, false) else BoxView(Hidden, false))
  }

  // ---------------------------------------------------------------------------
  // Construction
  // ---------------------------------------------------------------------------

  /** The constructor followed by `init` over `n` discovered boxes. With no boxes
      `init` returns at once: nothing is laid out or focused and no listener is
      registered (an input adapter never reaches such a navigator). */
  function Create(n: nat): (w: Navigator)
    ensures w.currentIndex == 0 && w.totalBoxes == n
    ensures !w.isScrolling && w.lastScrollTime == 0 && w.log == []
    ensures |w.views| == n
    ensures forall i :: 0 <= i < n ==>
      && (w.views[i].cls == Active <==> i == 0)
      && (w.views[i].cls == Hidden <==> i != 0)
      && !w.views[i].ariaCurrent
    ensures w.focused == (if n == 0 then None else Some(0))
  {
    Navigator(0, n, false, 0, 0, InitialLayout(n), if n == 0 then None else Some(0), [])
  }

  // ---------------------------------------------------------------------------
  // Transitions
  // ---------------------------------------------------------------------------

  /** Direct jump, clamped into range; it never consults the lock. With no boxes the
      index is still clamped to 0, but focusing the missing box 0 throws before
      the projection has anything to show and before any notification is sent. */
  function ActivateBox(w: Navigator, index: int): (r: Navigator)
    ensures r.totalBoxes == w.totalBoxes && r.isScrolling == w.isScrolling
    ensures r.lastScrollTime == w.lastScrollTime && r.touchStartY == w.touchStartY
    ensures w.totalBoxes > 0 ==> r.currentIndex < w.totalBoxes
    ensures 0 <= index < w.totalBoxes ==> r.currentIndex == index
    ensures index < 0 ==> r.currentIndex == 0
    ensures 0 < w.totalBoxes <= index ==> r.currentIndex == w.totalBoxes - 1
    ensures w.totalBoxes == 0 ==> r == w.(currentIndex := 0)
    ensures w.totalBoxes > 0 ==>
      && r.views == UpdateBoxStates(r.currentIndex, w.totalBoxes)
      && r.focused == Some(r.currentIndex)
      && r.log == w.log + [BoxChange(r.currentIndex, w.totalBoxes)]
  {
    var i := Max(0, Min(index, w.totalBoxes - 1));
    if w.totalBoxes == 0 then w.(currentIndex := 0)
    else w.(currentIndex := i,
            views := UpdateBoxStates(i, w.totalBoxes),
            focused := Some(i),
            log := w.log + [BoxChange(i, w.totalBoxes)])
  }

  /** One step forward, refused on the last box and while the lock is on. */
  function NextBox(w: Navigator): (s: Step)
    ensures s.moved <==> w.currentIndex + 1 < w.totalBoxes && !w.isScrolling
    ensures !s.moved ==> s.after == w
    ensures s.moved ==>
      && s.after.currentIndex == w.currentIndex + 1
      && s.after.isScrolling
      && s.after.totalBoxes == w.totalBoxes
      && s.after.lastScrollTime == w.lastScrollTime
      && s.after.touchStartY == w.touchStartY
      && s.after.views == UpdateBoxStates(w.currentIndex + 1, w.totalBoxes)
      && s.after.focused == Some(w.currentIndex + 1)
      && s.after.log == w.log + [BoxChange(w.currentIndex + 1, w.totalBoxes)]
  {
    if w.currentIndex < w.totalBoxes - 1 && !w.isScrolling then
      Step(ActivateBox(w.(isScrolling := true), w.currentIndex + 1), true)
    else
      Step(w, false)
  }

  /** One step back, refused on the first box and while the lock is on. */
  function PreviousBox(w: Navigator): (s: Step)
    ensures s.moved <==> 0 < w.currentIndex && !w.isScrolling
    ensures !s.moved ==> s.after == w
    ensures s.moved ==>
      && s.after.isScrolling
      && s.after.totalBoxes == w.totalBoxes
      && s.after.lastScrollTime == w.lastScrollTime
      && s.after.touchStartY == w.touchStartY
      && (w.currentIndex < w.totalBoxes ==>
            && s.after.currentIndex + 1 == w.currentIndex
            && s.after.views == UpdateBoxStates(w.currentIndex - 1, w.totalBoxes)
            && s.after.focused == Some(w.currentIndex - 1)
            && s.after.log == w.log + [BoxChange(w.currentIndex - 1, w.totalBoxes)])
  {
    if w.currentIndex > 0 && !w.isScrolling then
      Step(ActivateBox(w.(isScrolling := true), w.currentIndex - 1), true)
    else
      Step(w, false)
  }

  /** The cooldown timer firing: the lock is released and nothing else changes. */
  function Unlock(w: Navigator): (r: Navigator)
    ensures !r.isScrolling
    ensures r.(isScrolling := w.isScrolling) == w
  {
    w.(isScrolling := false)
  }

  /** Range-checked jump: an index outside the boxes is refused rather than clamped. */
  function GoToBox(w: Navigator, index: int): (s: Step)
    ensures s.moved <==> 0 <= index < w.totalBoxes
    ensures !s.moved ==> s.after == w
    ensures s.moved ==>
      && s.after.currentIndex == index
      && s.after.isScrolling == w.isScrolling
      && s.after.lastScrollTime == w.lastScrollTime
      && s.after.views == UpdateBoxStates(index, w.totalBoxes)
      && s.after.log == w.log + [BoxChange(index, w.totalBoxes)]
  {
    if index >= 0 && index < w.totalBoxes then Step(ActivateBox(w, index), true)
    else Step(w, false)
  }

  /** A viewport resize re-runs the projection and touches nothing else. */
  function HandleResize(w: Navigator): (r: Navigator)
    ensures r.views == UpdateBoxStates(w.currentIndex, w.totalBoxes)
    ensures r.(views := w.views) == w
  {
    w.(views := UpdateBoxStates(w.currentIndex, w.totalBoxes))
  }

  // ---------------------------------------------------------------------------
  // Wheel adapter
  // ---------------------------------------------------------------------------

  /** Whether the active content is larger than its box in either direction;
      a missing region counts as no overflow. */
  function HasContentOverflow(content: Option<Metrics>): (b: bool)
    ensures content.None? ==> !b
    ensures content.Some? ==>
      (content.value.scrollHeight <= content.value.clientHeight && content.value.scrollWidth <= content.value.clientWidth ==> !b)
  {
    match content
    case None => false
    case Some(m) => m.scrollHeight > m.clientHeight || m.scrollWidth > m.clientWidth
  }

  /** Whether the active content is scrolled to (within tolerance of) its top or
      its bottom; a missing region counts as at a boundary. */
  function IsAtScrollBoundary(content: Option<Metrics>): (b: bool)
    ensures content.None? ==> b
    // content that fits its box, up to the tolerance, is always at a boundary
    ensures content.Some? ==>
      (0 <= content.value.scrollTop && content.value.scrollHeight <= content.value.clientHeight + BoundaryTolerance ==> b)
    // away from both ends, more than twice the tolerance of content is hidden
    ensures content.Some? && !b ==>
      content.value.scrollHeight - content.value.clientHeight > 2 * BoundaryTolerance
  {
    match content
    case None => true
    case Some(m) =>
      || m.scrollTop <= BoundaryTolerance
      || m.scrollTop + m.clientHeight >= m.scrollHeight - BoundaryTolerance
  }

  /** Whether a wheel event at `now` is swallowed by the throttle or the lock. */
  predicate Throttled(w: Navigator, now: int) {
    now - w.lastScrollTime < ScrollThrottle || w.isScrolling
  }

  /** Whether a wheel event is left to scroll the inner content natively. */
  predicate PassesThrough(content: Option<Metrics>) {
    HasContentOverflow(content) && !IsAtScrollBoundary(content)
  }

  /** The wheel handler. Only the sign of `deltaY` matters. */
  function HandleScroll(w: Navigator, now: int, deltaY: int, content: Option<Metrics>): (h: Handled)
    ensures Throttled(w, now) ==> h == Handled(w, true)
    ensures !Throttled(w, now) && PassesThrough(content) ==> h == Handled(w, false)
    ensures !Throttled(w, now) && !PassesThrough(content) ==>
      && h.after.lastScrollTime == now
      && (h.defaultPrevented <==> deltaY != 0)
      && (deltaY > 0 ==> h.after == NextBox(w.(lastScrollTime := now)).after)
      && (deltaY < 0 ==> h.after == PreviousBox(w.(lastScrollTime := now)).after)
      && (deltaY == 0 ==> h.after == w.(lastScrollTime := now))
  {
    if now - w.lastScrollTime < ScrollThrottle || w.isScrolling then
      Handled(w, true)
    else if HasContentOverflow(content) && !IsAtScrollBoundary(content) then
      Handled(w, false)
    else
      var w1 := w.(lastScrollTime := now);
      if deltaY > 0 then Handled(NextBox(w1).after, true)
      else if deltaY < 0 then Handled(PreviousBox(w1).after, true)
      else Handled(w1, false)
  }

  // ---------------------------------------------------------------------------
  // Keyboard adapter
  // ---------------------------------------------------------------------------

  /** Target elements inside which key presses are left alone. */
  predicate IsTextInputTag(tag: string) {
    tag == "INPUT" || tag == "TEXTAREA" || tag == "SELECT"
  }

  predicate IsForwardKey(key: string) { key == "ArrowDown" || key == "PageDown" || key == " " }
  predicate IsBackwardKey(key: string) { key == "ArrowUp" || key == "PageUp" }
  predicate IsDigitKey(key: string) { key == "1" || key == "2" || key == "3" }

  /** The box a digit key names: `parseInt(key) - 1`. */
  function DigitTarget(key: string): int
    requires IsDigitKey(key)
  {
    (key[0] as int) - ('1' as int)
  }

  /** The keydown handler. */
  function HandleKeydown(w: Navigator, key: string, targetTag: string): (h: Handled)
    ensures IsTextInputTag(targetTag) ==> h == Handled(w, false)
    ensures !IsTextInputTag(targetTag) ==>
      && (IsForwardKey(key) ==> h == Handled(NextBox(w).after, true))
      && (IsBackwardKey(key) ==> h == Handled(PreviousBox(w).after, true))
      && (key == "Home" ==> h == Handled(ActivateBox(w, 0), true))
      && (key == "End" ==> h == Handled(ActivateBox(w, w.totalBoxes - 1), true))
      && (IsDigitKey(key) && DigitTarget(key) < w.totalBoxes ==>
            h == Handled(ActivateBox(w, DigitTarget(key)), true))
      && (IsDigitKey(key) && DigitTarget(key) >= w.totalBoxes ==> h == Handled(w, false))
    ensures (!IsForwardKey(key) && !IsBackwardKey(key) && !IsDigitKey(key)
             && key != "Home" && key != "End") ==> h == Handled(w, false)
  {
    if IsTextInputTag(targetTag) then Handled(w, false)
    else if IsForwardKey(key) then Handled(NextBox(w).after, true)
    else if IsBackwardKey(key) then Handled(PreviousBox(w).after, true)
    else if key == "Home" then Handled(ActivateBox(w, 0), true)
    else if key == "End" then Handled(ActivateBox(w, w.totalBoxes - 1), true)
    else if IsDigitKey(key) then
      var index := DigitTarget(key);
      if index >= 0 && index < w.totalBoxes then Handled(ActivateBox(w, index), true)
      else Handled(w, false)
    else Handled(w, false)
  }

  // ---------------------------------------------------------------------------
  // Touch adapter
  // ---------------------------------------------------------------------------

  /** touchstart records the finger's vertical screen coordinate. */
  function TouchStart(w: Navigator, y: int): (r: Navigator)
    ensures r.touchStartY == y
    ensures r.(touchStartY := w.touchStartY) == w
  {
    w.(touchStartY := y)
  }

  /** touchend: a swipe up (start below end) by more than the threshold steps
      forward, a swipe down steps back; ignored while the lock is on. */
  function TouchEnd(w: Navigator, endY: int): (r: Navigator)
    ensures w.isScrolling ==> r == w
    ensures Abs(w.touchStartY - endY) <= TouchThreshold ==> r == w
    ensures !w.isScrolling && w.touchStartY - endY > TouchThreshold ==> r == NextBox(w).after
    ensures !w.isScrolling && w.touchStartY - endY < -TouchThreshold ==> r == PreviousBox(w).after
  {
    if w.isScrolling then w
    else
      var deltaY := w.touchStartY - endY;
      if Abs(deltaY) > TouchThreshold then
        if deltaY > 0 then NextBox(w).after else PreviousBox(w).after
      else w
  }

  // ---------------------------------------------------------------------------
  // Invariant of every reachable navigator
  // ---------------------------------------------------------------------------

  /** The state invariant: the index addresses a box (or is 0 with no boxes),
      the views are either the init layout or the projection of the index, and
      the notification log agrees with the index, so a listener that tracks the
      latest notification (the position indicator) shows the active box. */
  predicate Valid(w: Navigator) {
    && |w.views| == w.totalBoxes
    && (w.totalBoxes == 0 ==> w.currentIndex == 0 && !w.isScrolling && w.log == [])
    && (w.totalBoxes > 0 ==> w.currentIndex < w.totalBoxes)
    && (w.views == UpdateBoxStates(w.currentIndex, w.totalBoxes)
        || (w.views == InitialLayout(w.totalBoxes) && w.currentIndex == 0))
    && (w.log == [] ==> w.currentIndex == 0)
    && (w.log != [] ==> w.log[|w.log| - 1] == BoxChange(w.currentIndex, w.totalBoxes))
  }
}

=== FILE: waterfall_events.dfy ===
/** The navigator as an event reactor: every browser event that reaches it (or
    the programmatic calls other components make) is one `Event`, and a session
    is a sequence of them. This is where the cooldown's purpose is proved:
    without jumps, every change of the active box is a single step that takes
    the lock, so between two expiries of the cooldown timer the active box moves
    by at most one. */
module WaterfallEvents {
  import opened Wrappers
  import opened Waterfall

  datatype Event =
    | Wheel(now: int, deltaY: int, content: Option<Metrics>)
    | KeyDown(key: string, targetTag: string)
    | TouchStarted(y: int)
    | TouchEnded(y: int)
    | Resized
      /** The 600 ms cooldown timer set by a successful step fires; the
          delay itself is not modelled, only the order of events. */
    | LockExpired
      /** A click on a position-indicator dot (`goToBox`). */
    | IndicatorClick(index: int)
      /** `scrollNext` / `scrollPrev`, called by the voice-command component. */
    | ScrollNext
    | ScrollPrev

  /** Events delivered through listeners that `init` registers only when boxes exist. */
  predicate IsListenerEvent(e: Event) {
    e.Wheel? || e.KeyDown? || e.TouchStarted? || e.TouchEnded? || e.Resized?
  }

  /** Events that may move the active box by more than one place. */
  predicate IsJump(e: Event) {
    || e.IndicatorClick?
    || (e.KeyDown? && (e.key == "Home" || e.key == "End" || IsDigitKey(e.key)))
  }

  /** Delivers one event. */
  function Dispatch(w: Navigator, e: Event): (r: Navigator)
    requires Valid(w)
    ensures Valid(r)
    ensures r.totalBoxes == w.totalBoxes
    // listener events are ignored on a page without boxes, else reach their handler
    ensures IsListenerEvent(e) && w.totalBoxes == 0 ==> r == w
    ensures w.totalBoxes > 0 && e.Wheel? ==> r == HandleScroll(w, e.now, e.deltaY, e.content).after
    ensures w.totalBoxes > 0 && e.KeyDown? ==> r == HandleKeydown(w, e.key, e.targetTag).after
    ensures w.totalBoxes > 0 && e.TouchStarted? ==> r == TouchStart(w, e.y)
    ensures w.totalBoxes > 0 && e.TouchEnded? ==> r == TouchEnd(w, e.y)
    ensures w.totalBoxes > 0 && e.Resized? ==> r == HandleResize(w)
    ensures e.LockExpired? ==> r == Unlock(w)
    ensures e.IndicatorClick? ==> r == GoToBox(w, e.index).after
    ensures e.ScrollNext? ==> r == NextBox(w).after
    ensures e.ScrollPrev? ==> r == PreviousBox(w).after
    // nothing but the timer releases the lock
    ensures !e.LockExpired? && w.isScrolling ==> r.isScrolling
    // apart from jumps, the index moves only by one step, and only by taking the lock
    ensures !IsJump(e) && r.currentIndex != w.currentIndex ==>
      && !w.isScrolling && r.isScrolling
      && Abs(r.currentIndex - w.currentIndex) == 1
  {
    if IsListenerEvent(e) then DispatchInput(w, e) else DispatchCall(w, e)
  }

  /** `r` follows `w` by at most one step, taken only by switching the lock on. */
  predicate LockedStep(w: Navigator, r: Navigator) {
    && Valid(r)
    && r.totalBoxes == w.totalBoxes
    && (w.isScrolling ==> r.isScrolling)
    && (r.currentIndex != w.currentIndex ==>
          && !w.isScrolling && r.isScrolling
          && Abs(r.currentIndex - w.currentIndex) == 1)
  }

  /** A step forward keeps the invariant and is a locked step. */
  lemma NextIsLockedStep(w: Navigator)
    requires Valid(w)
    ensures LockedStep(w, NextBox(w).after)
  {
  }

  /** A step back keeps the invariant and is a locked step. */
  lemma PreviousIsLockedStep(w: Navigator)
    requires Valid(w)
    ensures LockedStep(w, PreviousBox(w).after)
  {
  }

  /** A clamped jump on a page with boxes keeps the invariant and the lock. */
  lemma ActivateKeepsValid(w: Navigator, index: int)
    requires Valid(w) && w.totalBoxes > 0
    ensures Valid(ActivateBox(w, index))
    ensures ActivateBox(w, index).totalBoxes == w.totalBoxes
    ensures ActivateBox(w, index).isScrolling == w.isScrolling
  {
  }

  /** The wheel handler is a locked step. */
  lemma WheelIsLockedStep(w: Navigator, now: int, deltaY: int, content: Option<Metrics>)
    requires Valid(w)
    ensures LockedStep(w, HandleScroll(w, now, deltaY, content).after)
  {
    var w1 := w.(lastScrollTime := now);
    NextIsLockedStep(w1);
    PreviousIsLockedStep(w1);
  }

  /** The touch handlers are locked steps. */
  lemma TouchIsLockedStep(w: Navigator, y: int)
    requires Valid(w)
    ensures LockedStep(w, TouchStart(w, y))
    ensures LockedStep(w, TouchEnd(w, y))
  {
    NextIsLockedStep(w);
    PreviousIsLockedStep(w);
  }

  /** The key handler keeps the invariant and the lock, and is a locked step
      except for the jump keys. */
  lemma KeydownKeepsValid(w: Navigator, key: string, tag: string)
    requires Valid(w) && w.totalBoxes > 0
    ensures var r := HandleKeydown(w, key, tag).after;
      && Valid(r) && r.totalBoxes == w.totalBoxes
      && (w.isScrolling ==> r.isScrolling)
      && (!IsJump(KeyDown(key, tag)) ==> LockedStep(w, r))
  {
    NextIsLockedStep(w);
    PreviousIsLockedStep(w);
    ActivateKeepsValid(w, 0);
    ActivateKeepsValid(w, w.totalBoxes - 1);
    if IsDigitKey(key) {
      ActivateKeepsValid(w, DigitTarget(key));
    }
  }

  /** An event delivered through a listener `init` registered. */
  function DispatchInput(w: Navigator, e: Event): (r: Navigator)
    requires IsListenerEvent(e)
    requires Valid(w)
    ensures Valid(r)
    ensures r.totalBoxes == w.totalBoxes
    ensures w.totalBoxes == 0 ==> r == w
    // with boxes, each listener event reaches its own handler
    ensures w.totalBoxes > 0 && e.Wheel? ==> r == HandleScroll(w, e.now, e.deltaY, e.content).after
    ensures w.totalBoxes > 0 && e.KeyDown? ==> r == HandleKeydown(w, e.key, e.targetTag).after
    ensures w.totalBoxes > 0 && e.TouchStarted? ==> r == TouchStart(w, e.y)
    ensures w.totalBoxes > 0 && e.TouchEnded? ==> r == TouchEnd(w, e.y)
    ensures w.totalBoxes > 0 && e.Resized? ==> r == HandleResize(w)
    ensures w.isScrolling ==> r.isScrolling
    ensures !IsJump(e) && r.currentIndex != w.currentIndex ==>
      && !w.isScrolling && r.isScrolling
      && Abs(r.currentIndex - w.currentIndex) == 1
  {
    if w.totalBoxes == 0 then w
    else
      match e
      case Wheel(now, deltaY, content) =>
        WheelIsLockedStep(w, now, deltaY, content);
        HandleScroll(w, now, deltaY, content).after
      case KeyDown(key, tag) =>
        KeydownKeepsValid(w, key, tag);
        HandleKeydown(w, key, tag).after
      case TouchStarted(y) =>
        TouchIsLockedStep(w, y);
        TouchStart(w, y)
      case TouchEnded(y) =>
        TouchIsLockedStep(w, y);
        TouchEnd(w, y)
      case Resized => HandleResize(w)
  }

  /** The timer, an indicator click, or a call from another component. */
  function DispatchCall(w: Navigator, e: Event): (r: Navigator)
    requires !IsListenerEvent(e)
    requires Valid(w)
    ensures Valid(r)
    ensures r.totalBoxes == w.totalBoxes
    ensures e.LockExpired? ==> r == Unlock(w)
    ensures e.IndicatorClick? ==> r == GoToBox(w, e.index).after
    ensures e.ScrollNext? ==> r == NextBox(w).after
    ensures e.ScrollPrev? ==> r == PreviousBox(w).after
    // nothing but the timer releases the lock
    ensures !e.LockExpired? && w.isScrolling ==> r.isScrolling
    // apart from jumps, the index moves only by one step, and only by taking the lock
    ensures !IsJump(e) && r.currentIndex != w.currentIndex ==>
      && !w.isScrolling && r.isScrolling
      && Abs(r.currentIndex - w.currentIndex) == 1
  {
    match e
    case LockExpired => Unlock(w)
    case IndicatorClick(i) => GoToBox(w, i).after
    case ScrollNext => NextBox(w).after
    case ScrollPrev => PreviousBox(w).after
  }

  /** Delivers a sequence of events in order. */
  function Run(w: Navigator, evs: seq<Event>): (r: Navigator)
    requires Valid(w)
    ensures Valid(r)
    ensures r.totalBoxes == w.totalBoxes
    decreases |evs|
  {
    if evs == [] then w else Run(Dispatch(w, evs[0]), evs[1..])
  }

  /** How many events of the session switched the lock on. */
  function LocksTaken(w: Navigator, evs: seq<Event>): nat
    requires Valid(w)
    decreases |evs|
  {
    if evs == [] then 0
    else
      var w1 := Dispatch(w, evs[0]);
      (if !w.isScrolling && w1.isScrolling then 1 else 0) + LocksTaken(w1, evs[1..])
  }

  predicate NoExpiry(evs: seq<Event>) {
    forall k :: 0 <= k < |evs| ==> !evs[k].LockExpired?
  }

  predicate NoJump(evs: seq<Event>) {
    forall k :: 0 <= k < |evs| ==> !IsJump(evs[k])
  }

  /** Every reachable navigator satisfies the invariant. */
  lemma CreateValid(n: nat)
    ensures Valid(Create(n))
  {
    if n > 0 {
      assert Create(n).views == InitialLayout(n);
    }
  }

  /** Without the timer firing, the lock is taken at most once, and never when it is
      already held: a burst of wheel, touch and key events yields at most one step. */
  lemma {:induction false} AtMostOneLockPerCooldown(w: Navigator, evs: seq<Event>)
    requires Valid(w)
    requires NoExpiry(evs)
    ensures LocksTaken(w, evs) <= (if w.isScrolling then 0 else 1)
    ensures w.isScrolling ==> Run(w, evs).isScrolling
    decreases |evs|
  {
    if evs != [] {
      var w1 := Dispatch(w, evs[0]);
      assert !evs[0].LockExpired?;
      assert NoExpiry(evs[1..]) by {
        forall k | 0 <= k < |evs[1..]| ensures !evs[1..][k].LockExpired? {
          assert evs[1..][k] == evs[k + 1];
        }
      }
      AtMostOneLockPerCooldown(w1, evs[1..]);
    }
  }

  /** Without jumps, the active box moves no further than the number of times the
      lock was taken: every move is a single step. */
  lemma {:induction false} DisplacementBoundedByLocks(w: Navigator, evs: seq<Event>)
    requires Valid(w)
    requires NoJump(evs)
    ensures Abs(Run(w, evs).currentIndex - w.currentIndex) <= LocksTaken(w, evs)
    decreases |evs|
  {
    if evs != [] {
      var w1 := Dispatch(w, evs[0]);
      assert !IsJump(evs[0]);
      assert NoJump(evs[1..]) by {
        forall k | 0 <= k < |evs[1..]| ensures !IsJump(evs[1..][k]) {
          assert evs[1..][k] == evs[k + 1];
        }
      }
      DisplacementBoundedByLocks(w1, evs[1..]);
      assert Run(w, evs) == Run(w1, evs[1..]);
      assert LocksTaken(w, evs) == (if !w.isScrolling && w1.isScrolling then 1 else 0) + LocksTaken(w1, evs[1..]);
      assert Abs(w1.currentIndex - w.currentIndex) <= (if !w.isScrolling && w1.isScrolling then 1 else 0);
    }
  }

  /** Within one cooldown window and without jumps, the active box moves by at most
      one place, and not at all if the window had already started. */
  lemma SingleStepPerCooldown(w: Navigator, evs: seq<Event>)
    requires Valid(w)
    requires NoExpiry(evs) && NoJump(evs)
    ensures Abs(Run(w, evs).currentIndex - w.currentIndex) <= (if w.isScrolling then 0 else 1)
  {
    AtMostOneLockPerCooldown(w, evs);
    DisplacementBoundedByLocks(w, evs);
  }
}

=== FILE: waterfall_lemmas.dfy ===
/** Properties of the navigator that relate several operations or pin down the
    projection and the input adapters' decisions in the page's own terms. */
module WaterfallLemmas {
  import opened Wrappers
  import opened Waterfall

  /** After a projection exactly one box is active and only it carries
      `aria-current`; `previous` and `next` sit only right before and right after
      it, and every other box is hidden. */
  lemma ProjectionShape(current: nat, n: nat)
    requires current < n
    ensures IndicesOf(UpdateBoxStates(current, n), Active) == {current}
    ensures AriaCurrentIndices(UpdateBoxStates(current, n)) == {current}
    ensures IndicesOf(UpdateBoxStates(current, n), Previous)
            == (if current > 0 then {current - 1} else {})
    ensures IndicesOf(UpdateBoxStates(current, n), Next)
            == (if current + 1 < n then {current + 1} else {})
    ensures forall i ::
      (i in IndicesOf(UpdateBoxStates(current, n), Hidden)
       <==> 0 <= i < n && (i + 1 < current || current + 1 < i))
  {
    var v := UpdateBoxStates(current, n);
    assert v[current].cls == Active;
    if current > 0 {
      assert v[current - 1].cls == Previous;
    }
    if current + 1 < n {
      assert v[current + 1].cls == Next;
    }
  }

  /** `init` does not lay out the boxes the way the projection does: with two or
      more boxes, box 1 is hidden after `init` but `next` after a projection. */
  lemma InitLayoutIsNotProjection(n: nat)
    requires n >= 2
    ensures Create(n).views[1].cls == Hidden
    ensures UpdateBoxStates(0, n)[1].cls == Next
    ensures Create(n).views != UpdateBoxStates(0, n)
  {
    assert Create(n).views[1] != UpdateBoxStates(0, n)[1];
  }

  /** The clamped jump lands on the valid index nearest to the one requested. */
  lemma ActivateIsNearest(w: Navigator, index: int, j: int)
    requires 0 <= j < w.totalBoxes
    ensures Abs(ActivateBox(w, index).currentIndex - index) <= Abs(j - index)
  {
  }

  /** Clamping on a five-box page: a jump to -5 lands on box 0, one to 100 on box 4. */
  lemma ClampScenario(w: Navigator)
    requires w.totalBoxes == 5
    ensures ActivateBox(w, -5).currentIndex == 0
    ensures ActivateBox(w, 100).currentIndex == 4
    ensures !GoToBox(w, -5).moved && !GoToBox(w, 100).moved
  {
  }

  /** An in-range `goToBox` is exactly `activateBox`; an out-of-range one is refused. */
  lemma GoToBoxAgreesWithActivate(w: Navigator, index: int)
    ensures 0 <= index < w.totalBoxes ==> GoToBox(w, index).after == ActivateBox(w, index)
    ensures !(0 <= index < w.totalBoxes) ==> GoToBox(w, index).after == w
  {
  }

  /** A direct jump works during the cooldown right after a step. */
  lemma LockBypass(w: Navigator)
    requires Valid(w)
    requires NextBox(w).moved
    ensures NextBox(w).after.isScrolling
    ensures GoToBox(NextBox(w).after, 0).moved
    ensures GoToBox(NextBox(w).after, 0).after.currentIndex == 0
  {
  }

  /** A step forward and, once the cooldown is over, a step back restore the active
      box and the projection. */
  lemma NextThenPrevious(w: Navigator)
    requires Valid(w)
    requires NextBox(w).moved
    ensures PreviousBox(Unlock(NextBox(w).after)).moved
    ensures PreviousBox(Unlock(NextBox(w).after)).after.currentIndex == w.currentIndex
    ensures PreviousBox(Unlock(NextBox(w).after)).after.views
            == UpdateBoxStates(w.currentIndex, w.totalBoxes)
  {
  }

  /** A step back and, once the cooldown is over, a step forward restore the active box. */
  lemma PreviousThenNext(w: Navigator)
    requires Valid(w)
    requires PreviousBox(w).moved
    ensures NextBox(Unlock(PreviousBox(w).after)).moved
    ensures NextBox(Unlock(PreviousBox(w).after)).after.currentIndex == w.currentIndex
  {
  }

  /** Resizing twice is resizing once, and the active box never changes. */
  lemma ResizeIdempotent(w: Navigator)
    ensures HandleResize(HandleResize(w)) == HandleResize(w)
    ensures HandleResize(w).currentIndex == w.currentIndex
  {
  }

  /** The wheel is left to scroll the inner content exactly when the content
      overflows and sits more than the tolerance away from both its top and its
      bottom; in that case nothing changes, the throttle stamp included, and the
      browser default is not suppressed. Otherwise the stamp moves to `now`. */
  lemma WheelPassThroughExactly(w: Navigator, now: int, deltaY: int, m: Metrics)
    requires !Throttled(w, now)
    ensures var h := HandleScroll(w, now, deltaY, Some(m));
      (h.after.lastScrollTime == w.lastScrollTime)
      <==> ((m.scrollHeight > m.clientHeight || m.scrollWidth > m.clientWidth)
            && m.scrollTop > 2 && m.scrollTop + m.clientHeight < m.scrollHeight - 2)
    ensures var h := HandleScroll(w, now, deltaY, Some(m));
      h.after.lastScrollTime == w.lastScrollTime ==> h == Handled(w, false)
  {
  }

  /** Without a content region the wheel always reaches the navigator. */
  lemma WheelMissingContentNavigates(w: Navigator, now: int, deltaY: int)
    requires !Throttled(w, now)
    ensures HandleScroll(w, now, deltaY, None).after.lastScrollTime == now
  {
  }

  /** Horizontal overflow alone never lets the wheel through: the content must
      hide more than twice the boundary tolerance vertically. */
  lemma PassThroughNeedsVerticalScroll(content: Option<Metrics>)
    ensures PassesThrough(content) ==>
      && content.Some?
      && content.value.scrollHeight - content.value.clientHeight > 2 * BoundaryTolerance
  {
  }

  /** Long content scrolled to the middle (extent 1000, viewport 300, offset 150):
      a wheel event of any delta leaves the navigator alone; unless the throttle
      swallowed it, the browser scrolls the content. */
  lemma WheelOverflowScenario(w: Navigator, now: int, deltaY: int, sw: int, cw: int)
    ensures HandleScroll(w, now, deltaY, Some(Metrics(150, 1000, 300, sw, cw))).after == w
    ensures !Throttled(w, now) ==>
      !HandleScroll(w, now, deltaY, Some(Metrics(150, 1000, 300, sw, cw))).defaultPrevented
  {
  }

  /** The same content scrolled to its top: an upward wheel event steps back (or
      does nothing on the first box) and suppresses the browser default. */
  lemma WheelTopBoundaryScenario(w: Navigator, now: int, deltaY: int, sw: int, cw: int)
    requires Valid(w)
    requires !Throttled(w, now) && deltaY < 0
    ensures var h := HandleScroll(w, now, deltaY, Some(Metrics(0, 1000, 300, sw, cw)));
      && h.defaultPrevented
      && h.after.currentIndex == (if w.currentIndex > 0 then w.currentIndex - 1 else 0)
  {
  }

  /** A wheel event inside the throttle window is swallowed whatever the content. */
  lemma WheelThrottleFirst(w: Navigator, now: int, deltaY: int, content: Option<Metrics>)
    requires now - w.lastScrollTime < ScrollThrottle
    ensures HandleScroll(w, now, deltaY, content) == Handled(w, true)
  {
  }

  /** A swipe from y=500 to y=440 (60px up) steps forward exactly once. */
  lemma TouchSwipeScenario(w: Navigator)
    requires Valid(w) && !w.isScrolling && w.currentIndex + 1 < w.totalBoxes
    ensures TouchEnd(TouchStart(w, 500), 440).currentIndex == w.currentIndex + 1
    ensures TouchEnd(TouchStart(w, 500), 440).isScrolling
  {
  }

  /** A swipe of at most the threshold never navigates, whatever the lock. */
  lemma TouchShortSwipeIgnored(w: Navigator, startY: int, endY: int)
    requires -TouchThreshold <= startY - endY <= TouchThreshold
    ensures TouchEnd(TouchStart(w, startY), endY) == TouchStart(w, startY)
  {
  }

  /** ArrowDown and, after the cooldown, ArrowUp restore the active box. */
  lemma ArrowDownThenUp(w: Navigator, tag: string)
    requires Valid(w) && !w.isScrolling && w.currentIndex + 1 < w.totalBoxes
    requires !IsTextInputTag(tag)
    ensures var w1 := HandleKeydown(w, "ArrowDown", tag).after;
      HandleKeydown(Unlock(w1), "ArrowUp", tag).after.currentIndex == w.currentIndex
  {
  }

  /** Home and End reach the first and last box even while the lock is on. */
  lemma HomeEndIgnoreLock(w: Navigator, tag: string)
    requires w.totalBoxes > 0 && !IsTextInputTag(tag)
    ensures HandleKeydown(w, "Home", tag).after.currentIndex == 0
    ensures HandleKeydown(w, "End", tag).after.currentIndex == w.totalBoxes - 1
    ensures HandleKeydown(w, "Home", tag).after.isScrolling == w.isScrolling
    ensures HandleKeydown(w, "End", tag).after.isScrolling == w.isScrolling
  {
  }

  /** Digit keys jump to box `digit - 1` when it exists and are ignored otherwise. */
  lemma DigitKeys(w: Navigator, tag: string)
    requires !IsTextInputTag(tag)
    ensures w.totalBoxes >= 3 ==> HandleKeydown(w, "3", tag).after.currentIndex == 2
    ensures w.totalBoxes < 3 ==> HandleKeydown(w, "3", tag) == Handled(w, false)
    ensures w.totalBoxes >= 1 ==> HandleKeydown(w, "1", tag).after.currentIndex == 0
  {
  }
}

=== FILE: wrappers.dfy ===
/** The optional-value type used across the model for "absent" DOM nodes,
    managers that are not installed, and commands that did not match. */
module Wrappers {

  datatype Option<+T> = None | Some(value: T)
}

=== FILE: xml_escape.dfy ===
/** Escaping text for the SSML document sent to the speech service: five global
    replacements applied one after another, `&` first. The model proves that the
    chain equals a one-character-at-a-time escape, that its output holds no
    markup character and no stray `&`, and that decoding the five entities gives
    the text back. */
module XmlEscape {

  /** `s.replace(/c/g, rep)`: every occurrence of `c` replaced by `rep`. */
  function ReplaceAll(s: string, c: char, rep: string): (r: string)
    ensures c !in rep ==> c !in r
    ensures c !in s ==> r == s
    ensures |r| >= |s| || |rep| == 0
  {
    if s == [] then []
    else (if s[0] == c then rep else [s[0]]) + ReplaceAll(s[1..], c, rep)
  }

  /** `escapeXml`: the five replacements, in the order they are applied. Because
      `&` goes first, the chain escapes every character exactly once. */
  function EscapeXml(s: string): (r: string)
    ensures r == EscapeOnePass(s)
  {
    EscapeIsOnePass(s);
    Chain(s)
  }

  /** The escaped text is safe to embed in the SSML document: it holds no markup
      character, every `&` in it starts an entity, and an XML parser decoding
      the entities gets the original text back. */
  lemma EscapeXmlIsSafe(s: string)
    ensures var r := EscapeXml(s);
      && (forall i :: 0 <= i < |r| ==> !IsMarkupChar(r[i]))
      && (forall i :: 0 <= i < |r| && r[i] == '&' ==> StartsWithEntity(r[i..]))
      && Unescape(r) == s
  {
    OnePassHasNoMarkup(s);
    OnePassAnchorsAmpersands(s);
    UnescapeInvertsOnePass(s);
  }

  // ---------------------------------------------------------------------------
  // The reference definition: escape each character on its own
  // ---------------------------------------------------------------------------

  predicate IsMarkupChar(c: char) {
    c == '<' || c == '>' || c == '"' || c == '\''
  }

  /** The entity written for one character, or the character itself. */
  function EscapeChar(c: char): string {
    if c == '&' then "&amp;"
    else if c == '<' then "&lt;"
    else if c == '>' then "&gt;"
    else if c == '"' then "&quot;"
    else if c == '\'' then "&apos;"
    else [c]
  }

  function EscapeOnePass(s: string): string {
    if s == [] then [] else EscapeChar(s[0]) + EscapeOnePass(s[1..])
  }

  predicate IsPrefix(p: string, t: string) {
    |p| <= |t| && t[..|p|] == p
  }

  /** Whether `t` begins with one of the five predefined XML entities. */
  predicate StartsWithEntity(t: string) {
    || IsPrefix("&amp;", t) || IsPrefix("&lt;", t) || IsPrefix("&gt;", t)
    || IsPrefix("&quot;", t) || IsPrefix("&apos;", t)
  }

  /** Decoding of the five predefined entities (what an XML parser does to the text). */
  function Unescape(t: string): string
    decreases |t|
  {
    if t == [] then []
    else if IsPrefix("&amp;", t) then "&" + Unescape(t[5..])
    else if IsPrefix("&lt;", t) then "<" + Unescape(t[4..])
    else if IsPrefix("&gt;", t) then ">" + Unescape(t[4..])
    else if IsPrefix("&quot;", t) then "\"" + Unescape(t[6..])
    else if IsPrefix("&apos;", t) then "'" + Unescape(t[6..])
    else [t[0]] + Unescape(t[1..])
  }

  // ---------------------------------------------------------------------------
  // Proofs
  // ---------------------------------------------------------------------------

  lemma {:induction false} ReplaceAllAppend(a: string, b: string, c: char, rep: string)
    ensures ReplaceAll(a + b, c, rep) == ReplaceAll(a, c, rep) + ReplaceAll(b, c, rep)
    decreases |a|
  {
    if a == [] {
      assert a + b == b;
    } else {
      var head := if a[0] == c then rep else [a[0]];
      assert (a + b)[0] == a[0];
      assert (a + b)[1..] == a[1..] + b;
      ReplaceAllAppend(a[1..], b, c, rep);
      calc {
        ReplaceAll(a + b, c, rep);
        head + ReplaceAll(a[1..] + b, c, rep);
        head + (ReplaceAll(a[1..], c, rep) + ReplaceAll(b, c, rep));
        (head + ReplaceAll(a[1..], c, rep)) + ReplaceAll(b, c, rep);
      }
    }
  }

  lemma ReplaceAllOne(x: char, c: char, rep: string)
    ensures ReplaceAll([x], c, rep) == if x == c then rep else [x]
  {
    assert [x][1..] == [];
  }

  /** The five global replacements `escapeXml` applies, in order: `&` first, so
      that the entities written by the later steps are not escaped again. */
  function Chain(s: string): (r: string)
    ensures |r| >= |s|
  {
    ReplaceAll(ReplaceAll(ReplaceAll(ReplaceAll(ReplaceAll(s,
      '&', "&amp;"), '<', "&lt;"), '>', "&gt;"), '"', "&quot;"), '\'', "&apos;")
  }

  lemma ChainAppend(a: string, b: string)
    ensures Chain(a + b) == Chain(a) + Chain(b)
  {
    var a1, b1 := ReplaceAll(a, '&', "&amp;"), ReplaceAll(b, '&', "&amp;");
    ReplaceAllAppend(a, b, '&', "&amp;");
    var a2, b2 := ReplaceAll(a1, '<', "&lt;"), ReplaceAll(b1, '<', "&lt;");
    ReplaceAllAppend(a1, b1, '<', "&lt;");
    var a3, b3 := ReplaceAll(a2, '>', "&gt;"), ReplaceAll(b2, '>', "&gt;");
    ReplaceAllAppend(a2, b2, '>', "&gt;");
    var a4, b4 := ReplaceAll(a3, '"', "&quot;"), ReplaceAll(b3, '"', "&quot;");
    ReplaceAllAppend(a3, b3, '"', "&quot;");
    ReplaceAllAppend(a4, b4, '\'', "&apos;");
  }

  lemma AbsentFixed(e: string, c: char, rep: string)
    requires forall k :: 0 <= k < |e| ==> e[k] != c
    ensures ReplaceAll(e, c, rep) == e
  {
    assert c !in e;
  }

  /** The steps that replace markup characters leave alone a string without
      any, such as every entity. */
  lemma NoMarkupFixed(e: string)
    requires forall k :: 0 <= k < |e| ==> !IsMarkupChar(e[k])
    ensures ReplaceAll(e, '<', "&lt;") == e
    ensures ReplaceAll(e, '>', "&gt;") == e
    ensures ReplaceAll(e, '"', "&quot;") == e
    ensures ReplaceAll(e, '\'', "&apos;") == e
  {
    AbsentFixed(e, '<', "&lt;");
    AbsentFixed(e, '>', "&gt;");
    AbsentFixed(e, '"', "&quot;");
    AbsentFixed(e, '\'', "&apos;");
  }

  /** On one character the chain produces that character's entity: each entity
      introduced contains only `&` and letters, which later steps leave alone. */
  lemma ChainOnChar(x: char)
    ensures Chain([x]) == EscapeChar(x)
  {
    ReplaceAllOne(x, '&', "&amp;");
    var s1 := ReplaceAll([x], '&', "&amp;");
    if x == '&' {
      NoMarkupFixed("&amp;");
      assert s1 == "&amp;";
      return;
    }
    assert s1 == [x];
    ReplaceAllOne(x, '<', "&lt;");
    var s2 := ReplaceAll(s1, '<', "&lt;");
    if x == '<' {
      NoMarkupFixed("&lt;");
      assert s2 == "&lt;";
      return;
    }
    assert s2 == [x];
    ReplaceAllOne(x, '>', "&gt;");
    var s3 := ReplaceAll(s2, '>', "&gt;");
    if x == '>' {
      NoMarkupFixed("&gt;");
      assert s3 == "&gt;";
      return;
    }
    assert s3 == [x];
    ReplaceAllOne(x, '"', "&quot;");
    var s4 := ReplaceAll(s3, '"', "&quot;");
    if x == '"' {
      NoMarkupFixed("&quot;");
      assert s4 == "&quot;";
      return;
    }
    assert s4 == [x];
    ReplaceAllOne(x, '\'', "&apos;");
  }

  lemma {:induction false} EscapeIsOnePass(s: string)
    ensures Chain(s) == EscapeOnePass(s)
    decreases |s|
  {
    if s != [] {
      assert s == [s[0]] + s[1..];
      ChainAppend([s[0]], s[1..]);
      ChainOnChar(s[0]);
      EscapeIsOnePass(s[1..]);
    }
  }

  lemma {:induction false} OnePassHasNoMarkup(s: string)
    ensures forall i :: 0 <= i < |EscapeOnePass(s)| ==> !IsMarkupChar(EscapeOnePass(s)[i])
    decreases |s|
  {
    if s != [] {
      OnePassHasNoMarkup(s[1..]);
      var a, b := EscapeChar(s[0]), EscapeOnePass(s[1..]);
      assert forall i :: 0 <= i < |a| ==> !IsMarkupChar(a[i]);
      forall i | 0 <= i < |a + b| ensures !IsMarkupChar((a + b)[i]) {
        if i >= |a| {
          assert (a + b)[i] == b[i - |a|];
        }
      }
    }
  }

  lemma PrefixOfAppend(p: string, t: string, u: string)
    requires IsPrefix(p, t)
    ensures IsPrefix(p, t + u)
  {
    assert (t + u)[..|p|] == t[..|p|];
  }

  lemma {:induction false} OnePassAnchorsAmpersands(s: string)
    ensures forall i ::
      (0 <= i < |EscapeOnePass(s)| && EscapeOnePass(s)[i] == '&'
       ==> StartsWithEntity(EscapeOnePass(s)[i..]))
    decreases |s|
  {
    if s != [] {
      OnePassAnchorsAmpersands(s[1..]);
      var a, b := EscapeChar(s[0]), EscapeOnePass(s[1..]);
      assert EscapeOnePass(s) == a + b;
      forall i | 0 <= i < |a + b| && (a + b)[i] == '&' ensures StartsWithEntity((a + b)[i..]) {
        if i < |a| {
          // only the first character of an entity is an ampersand
          assert i == 0;
          assert StartsWithEntity(a);
          assert (a + b)[0..] == a + b;
          if s[0] == '&' { PrefixOfAppend("&amp;", a, b); }
          else if s[0] == '<' { PrefixOfAppend("&lt;", a, b); }
          else if s[0] == '>' { PrefixOfAppend("&gt;", a, b); }
          else if s[0] == '"' { PrefixOfAppend("&quot;", a, b); }
          else { PrefixOfAppend("&apos;", a, b); }
        } else {
          assert (a + b)[i] == b[i - |a|];
          assert (a + b)[i..] == b[i - |a|..];
        }
      }
    }
  }

  /** Decoding an entity followed by anything: the entity's character, then the rest. */
  lemma UnescapeAfterEntity(e: string, n: nat, c: char, rest: string)
    requires IsMarkupChar(c) || c == '&'
    requires e == EscapeChar(c) && n == |e|
    ensures Unescape(e + rest) == [c] + Unescape(rest)
  {
    var t := e + rest;
    assert t[..n] == e;
    assert t[n..] == rest;
    assert t[1] == e[1] && t[2] == e[2];
  }

  /** A text starts with a prefix only if it starts with the prefix's first character. */
  lemma PrefixHead(p: string, t: string)
    requires |p| > 0
    ensures IsPrefix(p, t) ==> t[0] == p[0]
  {
    if |p| <= |t| {
      assert t[..|p|][0] == t[0];
    }
  }

  /** A text that does not start with `&` decodes its first character as itself. */
  lemma PlainHead(t: string)
    requires t != [] && t[0] != '&'
    ensures Unescape(t) == [t[0]] + Unescape(t[1..])
  {
    PrefixHead("&amp;", t);
    PrefixHead("&lt;", t);
    PrefixHead("&gt;", t);
    PrefixHead("&quot;", t);
    PrefixHead("&apos;", t);
  }

  /** Decoding the escape of one character followed by anything gives the
      character back, followed by the decoding of the rest. */
  lemma UnescapeEscapeChar(c: char, rest: string)
    ensures Unescape(EscapeChar(c) + rest) == [c] + Unescape(rest)
  {
    if c == '&' || IsMarkupChar(c) {
      UnescapeAfterEntity(EscapeChar(c), |EscapeChar(c)|, c, rest);
    } else {
      var t := [c] + rest;
      assert t[0] == c && t[1..] == rest;
      PlainHead(t);
    }
  }

  lemma {:induction false} UnescapeInvertsOnePass(s: string)
    ensures Unescape(EscapeOnePass(s)) == s
    decreases |s|
  {
    if s != [] {
      UnescapeInvertsOnePass(s[1..]);
      UnescapeEscapeChar(s[0], EscapeOnePass(s[1..]));
      assert [s[0]] + s[1..] == s;
    }
  }
}

=== FILE: zoom.dfy ===
/** Page zoom: an integer percentage kept within [50, 200], changed in steps of 10. */
module Zoom {
  import opened Wrappers

  const MinZoom: int := 50
  const MaxZoom: int := 200
  const DefaultZoom: int := 100
  const ZoomStep: int := 10

  datatype ZoomManager = ZoomManager(currentZoom: int)

  predicate InRange(z: ZoomManager) {
    MinZoom <= z.currentZoom <= MaxZoom
  }

  /** `applyZoom`: stores the requested level limited to the allowed range. */
  function ApplyZoom(level: int): (z: ZoomManager)
    ensures InRange(z)
    ensures MinZoom <= level <= MaxZoom ==> z.currentZoom == level
    ensures level < MinZoom ==> z.currentZoom == MinZoom
    ensures level > MaxZoom ==> z.currentZoom == MaxZoom
  {
    ZoomManager(if level < MinZoom then MinZoom else if level > MaxZoom then MaxZoom else level)
  }

  /** The constructor: the stored level (`None` when nothing or the empty string
      is stored), or the default, passed through `applyZoom`. */
  function Create(stored: Option<int>): (z: ZoomManager)
    ensures InRange(z)
    ensures stored.None? ==> z.currentZoom == DefaultZoom
    ensures stored.Some? && MinZoom <= stored.value <= MaxZoom ==> z.currentZoom == stored.value
  {
    ApplyZoom(if stored.Some? then stored.value else DefaultZoom)
  }

  /** Messages written to the screen-reader live region; each is followed by a
      level and a percent sign. */
  const ZoomedInTo: string := "页面已放大到 "
  const AtMaximum: string := "已达到最大缩放级别 "
  const ZoomedOutTo: string := "页面已缩小到 "
  const AtMinimum: string := "已达到最小缩放级别 "
  const ResetTo: string := "页面缩放已重置为 "

  /** A zoom operation's new state together with the message it announces. */
  datatype Changed = Changed(after: ZoomManager, announced: string)

  function DigitChar(d: nat): (ch: char)
    requires d < 10
    ensures '0' <= ch <= '9' && ch as int - '0' as int == d
  {
    "0123456789"[d]
  }

  /** The decimal digits of `n`, most significant first, without leading zeros. */
  function Digits(n: nat): (s: string)
    ensures |s| > 0 && AllDigits(s)
    ensures |s| > 1 ==> s[0] != '0'
  {
    if n < 10 then [DigitChar(n)] else Digits(n / 10) + [DigitChar(n % 10)]
  }

  predicate AllDigits(s: string) {
    forall k :: 0 <= k < |s| ==> '0' <= s[k] <= '9'
  }

  /** The value of a string of decimal digits. */
  function DigitsValue(s: string): nat
    requires AllDigits(s)
  {
    if s == [] then 0 else DigitsValue(s[..|s| - 1]) * 10 + (s[|s| - 1] as int - '0' as int)
  }

  /** Reading the digits back gives the number they were written from. */
  lemma {:induction false} DigitsRoundTrip(n: nat)
    ensures DigitsValue(Digits(n)) == n
  {
    var s := Digits(n);
    if n >= 10 {
      assert s[..|s| - 1] == Digits(n / 10);
      DigitsRoundTrip(n / 10);
    }
  }

  /** A number as a JavaScript template literal writes it, followed by `%`. */
  function Percent(n: int): string {
    (if n < 0 then "-" + Digits(-n) else Digits(n)) + "%"
  }

  /** `increaseZoom`: one step larger, announcing the new level; when that step
      would pass the maximum, no change and the maximum is announced. */
  function IncreaseZoom(z: ZoomManager): (r: Changed)
    ensures z.currentZoom + ZoomStep > MaxZoom ==> r == Changed(z, AtMaximum + Percent(MaxZoom))
    ensures InRange(z) && z.currentZoom + ZoomStep <= MaxZoom ==>
      && r.after.currentZoom == z.currentZoom + ZoomStep
      && r.announced == ZoomedInTo + Percent(r.after.currentZoom)
    ensures InRange(z) ==> InRange(r.after)
  {
    var newZoom := z.currentZoom + ZoomStep;
    if newZoom <= MaxZoom then Changed(ApplyZoom(newZoom), ZoomedInTo + Percent(newZoom))
    else Changed(z, AtMaximum + Percent(MaxZoom))
  }

  /** `decreaseZoom`: one step smaller, announcing the new level; when that step
      would pass the minimum, no change and the minimum is announced. */
  function DecreaseZoom(z: ZoomManager): (r: Changed)
    ensures z.currentZoom - ZoomStep < MinZoom ==> r == Changed(z, AtMinimum + Percent(MinZoom))
    ensures InRange(z) && z.currentZoom - ZoomStep >= MinZoom ==>
      && r.after.currentZoom == z.currentZoom - ZoomStep
      && r.announced == ZoomedOutTo + Percent(r.after.currentZoom)
    ensures InRange(z) ==> InRange(r.after)
  {
    var newZoom := z.currentZoom - ZoomStep;
    if newZoom >= MinZoom then Changed(ApplyZoom(newZoom), ZoomedOutTo + Percent(newZoom))
    else Changed(z, AtMinimum + Percent(MinZoom))
  }

  /** `resetZoom`: back to the default from any state, announcing it. */
  function ResetZoom(z: ZoomManager): (r: Changed)
    ensures r.after.currentZoom == DefaultZoom
    ensures r.announced == ResetTo + Percent(r.after.currentZoom)
  {
    Changed(ApplyZoom(DefaultZoom), ResetTo + Percent(DefaultZoom))
  }

  /** The Ctrl/Cmd shortcuts: `+` or `=` zooms in, `-` zooms out, `0` resets.
      `Some` is the operation run, after the browser default was suppressed;
      `None` means the key was left to the browser. */
  function HandleShortcut(z: ZoomManager, key: string, ctrlOrMeta: bool): (r: Option<Changed>)
    ensures !ctrlOrMeta ==> r.None?
    ensures ctrlOrMeta && (key == "+" || key == "=") ==> r == Some(IncreaseZoom(z))
    ensures ctrlOrMeta && key == "-" ==> r == Some(DecreaseZoom(z))
    ensures ctrlOrMeta && key == "0" ==> r == Some(ResetZoom(z))
    ensures key != "+" && key != "=" && key != "-" && key != "0" ==> r.None?
  {
    if ctrlOrMeta && (key == "+" || key == "=") then Some(IncreaseZoom(z))
    else if ctrlOrMeta && key == "-" then Some(DecreaseZoom(z))
    else if ctrlOrMeta && key == "0" then Some(ResetZoom(z))
    else None
  }

  /** A step that changes the level announces the new level in decimal; one
      that does not announces the limit it would have passed. */
  lemma AnnouncementNamesLevel(z: ZoomManager)
    requires InRange(z)
    ensures var r := IncreaseZoom(z);
      r.announced == if r.after != z then ZoomedInTo + Digits(r.after.currentZoom) + "%"
                     else AtMaximum + Digits(MaxZoom) + "%"
    ensures var r := DecreaseZoom(z);
      r.announced == if r.after != z then ZoomedOutTo + Digits(r.after.currentZoom) + "%"
                     else AtMinimum + Digits(MinZoom) + "%"
    ensures ResetZoom(z).announced == ResetTo + Digits(ResetZoom(z).after.currentZoom) + "%"
  {
  }

  /** Zooming in and back out returns to the starting level. */
  lemma DecreaseUndoesIncrease(z: ZoomManager)
    requires InRange(z) && z.currentZoom + ZoomStep <= MaxZoom
    ensures DecreaseZoom(IncreaseZoom(z).after).after == z
  {
  }

  /** Zooming out and back in returns to the starting level. */
  lemma IncreaseUndoesDecrease(z: ZoomManager)
    requires InRange(z) && z.currentZoom - ZoomStep >= MinZoom
    ensures IncreaseZoom(DecreaseZoom(z).after).after == z
  {
  }

  /** Resetting is idempotent. */
  lemma ResetIdempotent(z: ZoomManager)
    ensures ResetZoom(ResetZoom(z).after) == ResetZoom(z)
  {
  }

  /** The level saved by one visit is the level the next visit starts with. */
  lemma SavedLevelRestored(z: ZoomManager)
    requires InRange(z)
    ensures Create(Some(z.currentZoom)) == z
  {
  }

  /** Applying a level twice is applying it once. */
  lemma ApplyIdempotent(level: int)
    ensures ApplyZoom(ApplyZoom(level).currentZoom) == ApplyZoom(level)
  {
  }

  /** Repeated zooming in from any allowed level never passes the maximum, and
      `k` steps from level `z` reach `z + 10k` as long as that is allowed. */
  function IncreaseTimes(z: ZoomManager, k: nat): (r: ZoomManager)
    requires InRange(z)
    ensures InRange(r)
    ensures z.currentZoom + k * ZoomStep <= MaxZoom ==> r.currentZoom == z.currentZoom + k * ZoomStep
    ensures z.currentZoom + k * ZoomStep > MaxZoom ==> r.currentZoom > MaxZoom - ZoomStep
  {
    if k == 0 then z else IncreaseZoom(IncreaseTimes(z, k - 1)).after
  }
}
